=== FILE: README.md ===
# DragonJellyFileUtils in Dafny

A model of the file-handling core of DragonJellyFileUtils, a C# library of
asynchronous file utilities, with proofs of what its operations promise.

- `FileCompression.CompressAsync` archives a file or a whole directory tree into
  a zip container. It reports progress after each file against a precomputed
  total (`GetDirectorySize`, `GetFileSize`). It checks the cancellation token
  before each file.
- `FileCompression.DecompressAsync` extracts a container into a destination
  directory. It refuses any entry whose full path does not start with the
  destination string (the traversal guard), and reports progress against the
  sum of all entry lengths.
- `FileManager` copies, moves, creates and securely deletes single files.
  Secure delete overwrites the file in 4096-byte chunks of random bytes before
  deleting it. A move is a copy followed by a secure delete of the source.
- `DriveUtils.CanMoveItem` decides whether a file or directory fits into the
  free space of a destination drive, whose name is matched ignoring case.

## Files

| file | module | contents |
|---|---|---|
| `results.dfy` | `Results` | the exceptions the library lets escape, as an `Error` datatype; `Result`, `Status`, `Option` |
| `paths.dfy` | `Paths` | the Unix behaviour of `System.IO.Path`: blank strings, `GetDirectoryName`, `GetFileName`, `ChangeExtension`, `Combine`, `GetFullPath`, `GetRelativePath` |
| `filesystems.dfy` | `FileSystems` | the file system: a current directory, a map from absolute keys (lists of path segments) to file contents, and a set of directories |
| `directory_sizes.dfy` | `DirectorySizes` | the recursive `GetDirectorySize` and its equality with the flat sum over every file below |
| `file_compression.dfy` | `FileCompression` | `CompressAsync`, `DecompressAsync`, `GetFileSize` |
| `compression_properties.dfy` | `CompressionProperties` | entry names, contents, progress and cancellation of the archiving loop |
| `extraction_properties.dfy` | `ExtractionProperties` | confinement by the guard, where the guard is weak, and extraction progress |
| `file_manager.dfy` | `FileManager` | the overwrite pass and secure delete; copy (as written and corrected), move, create |
| `file_manager_properties.dfy` | `FileManagerProperties` | the chunk sequence, the bare-name copy finding, created files |
| `drive_utils.dfy` | `DriveUtils` | `CanMoveItem` |

A call that throws is modelled as a `Failure` or `Failed` value naming the
exception. What a failed run had already done is kept: the directories it
created, the entries it wrote into the container, the reports it sent. As in
.NET on Unix, a path that names nothing fails with DirectoryNotFound when the
directory above its full path is missing, and with FileNotFound otherwise.
Opening a file stream through a file, as in "a.txt/b" or a file named with a
trailing separator, fails with the plain IOException of ENOTDIR
(`NotADirectory`); `File.GetAttributes` reports such a path as not found.

Some inputs come from outside the library, so the model takes them as
parameters:

- The zip container format: `pack` turns entries into bytes and `unpack`
  reads them back.
- The order in which `GetFiles(AllDirectories)` enumerates a tree (`walk`).
- The random generator: `noise(pass, offset)` gives each byte.
- The drive table and the free space of each drive.

## Model

| member | source | states |
|---|---|---|
| `FileCompression.DefaultDestination` | DragonJellyFileUtils/DragonJellyFileUtils/FileCompression.cs:17-18 | with no destination given, the container is the source's stem with ".zip": bare when the source has no directory, otherwise that directory, one separator, and the name |
| `FileCompression.ForceZipExtension` | DragonJellyFileUtils/DragonJellyFileUtils/FileCompression.cs:20-21 | the result ends in ".zip" in any letter case; a name that already does is kept; any other name is cut at the start of its last extension (past the last separator, with no '.' after it) and given ".zip" |
| `FileCompression.ChangeToZip` | DragonJellyFileUtils/DragonJellyFileUtils/FileCompression.cs:21 | `ChangeExtension(d, ".zip")` keeps d up to the start of its last extension and appends ".zip" |
| `FileCompression.ResolveDestination` | DragonJellyFileUtils/DragonJellyFileUtils/FileCompression.cs:17-21 | the destination always ends in ".zip"; a given ".zip" name is used unchanged; any other non-blank name gets the extension rule ("backup.tar" becomes "backup.zip"); a blank one becomes the default next to the source |
| `FileCompression.DefaultIsZip` | DragonJellyFileUtils/DragonJellyFileUtils/FileCompression.cs:18 | the default destination already ends in ".zip", so the extension rule leaves it alone |
| `CompressionProperties.ForceZipIdempotent` | DragonJellyFileUtils/DragonJellyFileUtils/FileCompression.cs:20-21 | applying the extension rule twice is applying it once |
| `FileCompression.MapLevel` | DragonJellyFileUtils/DragonJellyFileUtils/FileCompression.cs:30-36 | Fastest and NoCompression map to their codec levels exactly; every other value of the enum, named or not, maps to Optimal |
| `FileCompression.Prepare` | DragonJellyFileUtils/DragonJellyFileUtils/FileCompression.cs:14-28 | a blank source is rejected first; without overwrite an existing destination fails with the I/O error; otherwise no file changes, and the directories are either unchanged or gain exactly the destination's directory and its ancestors |
| `FileCompression.PrepareWellFormed` | DragonJellyFileUtils/DragonJellyFileUtils/FileCompression.cs:26-28 | creating the destination's directory keeps every directory's ancestors present |
| `FileCompression.GetFileSize` | DragonJellyFileUtils/DragonJellyFileUtils/FileCompression.cs:153-166 | blank path gives the argument error; otherwise it succeeds exactly when the file exists, with the file's length |
| `FileCompression.ArchiveFiles` | DragonJellyFileUtils/DragonJellyFileUtils/FileCompression.cs:51-61 | at most one entry per enumerated file; a report follows every entry except one that failed to open; the loop completes exactly when every file was reported |
| `FileCompression.ArchiveSource` | DragonJellyFileUtils/DragonJellyFileUtils/FileCompression.cs:46-73 | a missing source fails with FileNotFound, or DirectoryNotFound when its parent is missing too, before any entry; a directory yields at most one entry per enumerated file and completes exactly when all were reported; a single file yields exactly one entry named by the file name of the path as given, holding its bytes, with one report at the total |
| `FileCompression.Worker` | DragonJellyFileUtils/DragonJellyFileUtils/FileCompression.cs:38-74 | only the container changes, and on every exit path it holds the packed entries created so far; no more reports than entries, as many when the run completes |
| `FileCompression.StartWorker` | DragonJellyFileUtils/DragonJellyFileUtils/FileCompression.cs:38-44 | a token signalled before the task starts leaves everything untouched; otherwise only the container changes, and a completed run leaves it holding exactly the packed entries, one report per entry |
| `FileCompression.Compress` | DragonJellyFileUtils/DragonJellyFileUtils/FileCompression.cs:12-75 | argument and overwrite errors leave everything untouched; no file but the container ever changes; a completed run leaves the container holding the packed entries at the mapped level |
| `CompressionProperties.ArchiveFilesNames` | DragonJellyFileUtils/DragonJellyFileUtils/FileCompression.cs:51-55 | entry j is named by the path of the j-th enumerated file relative to the root |
| `CompressionProperties.ArchiveFilesData` | DragonJellyFileUtils/DragonJellyFileUtils/FileCompression.cs:55-58 | every reported entry holds exactly the bytes of its file |
| `CompressionProperties.ArchiveFilesProgress` | DragonJellyFileUtils/DragonJellyFileUtils/FileCompression.cs:59-60 | report j carries the total and the summed length of the first j + 1 enumerated files |
| `CompressionProperties.RunningTotalsBounded` | DragonJellyFileUtils/DragonJellyFileUtils/FileCompression.cs:59-60 | running totals never decrease and never pass the bytes of the whole enumeration |
| `CompressionProperties.ArchiveFilesCancellation` | DragonJellyFileUtils/DragonJellyFileUtils/FileCompression.cs:53 | a cancelled loop stops exactly at the first index the token covers, and no reported file was covered by it |
| `CompressionProperties.ArchiveFilesOutcome` | DragonJellyFileUtils/DragonJellyFileUtils/FileCompression.cs:51-61 | over files that exist, the loop fails only by cancellation, after exactly as many entries as precede the signalled index, and otherwise completes |
| `CompressionProperties.WalkBytesAreDirectorySize` | DragonJellyFileUtils/DragonJellyFileUtils/FileCompression.cs:49-51 | when the enumeration lists each file below the root once, its total length is the directory's GetDirectorySize |
| `CompressionProperties.DirectoryArchive` | DragonJellyFileUtils/DragonJellyFileUtils/FileCompression.cs:46-61 | archiving a directory names and fills entry j from the j-th file; every report carries GetDirectorySize and a non-decreasing count within it; a completed run archives every file and ends at the total |
| `CompressionProperties.DirectoryEntryNames` | DragonJellyFileUtils/DragonJellyFileUtils/FileCompression.cs:54 | each entry name is the segments of its file below the root joined by '/' |
| `CompressionProperties.DirectoryArchiveStops` | DragonJellyFileUtils/DragonJellyFileUtils/FileCompression.cs:51-53 | a token seen before file k leaves exactly k entries and k reports; otherwise all files are archived |
| `CompressionProperties.SingleFileArchive` | DragonJellyFileUtils/DragonJellyFileUtils/FileCompression.cs:63-73 | a single file becomes one entry named by FileInfo.Name, the separator-free last segment of the path as given, with its bytes, and one report whose count equals the total |
| `CompressionProperties.CompressDirectory` | DragonJellyFileUtils/DragonJellyFileUtils/FileCompression.cs:38-61 | once the destination is prepared, the container holds the packed entries even when cancelled part-way; names, report bounds and the final total as for the directory loop |
| `FileCompression.PrepareExtraction` | DragonJellyFileUtils/DragonJellyFileUtils/FileCompression.cs:79-86 | blank source, then blank destination, are rejected; otherwise files are unchanged and the destination directory exists afterwards |
| `FileCompression.EntryTarget` | DragonJellyFileUtils/DragonJellyFileUtils/FileCompression.cs:104 | an entry's full path is rooted and renders the key that the destination combined with the entry name resolves to, keeping a trailing separator |
| `FileCompression.DirectoryMarkerHasNoFileName` | DragonJellyFileUtils/DragonJellyFileUtils/FileCompression.cs:109 | an entry is a directory marker exactly when its name is non-empty and has no file name after the last separator |
| `FileCompression.LengthsFrom` | DragonJellyFileUtils/DragonJellyFileUtils/FileCompression.cs:96-99 | the total counts every entry's length, and is zero exactly when every entry is empty |
| `FileCompression.ExtractEntry` | DragonJellyFileUtils/DragonJellyFileUtils/FileCompression.cs:104-124 | an entry failing the prefix guard stops with the outside-target error; a marker changes no file; a file entry writes exactly its bytes at its target, and only if overwrite is set or nothing is there |
| `FileCompression.ExtractFile` | DragonJellyFileUtils/DragonJellyFileUtils/FileCompression.cs:115-121 | writing a file entry changes exactly one file to the entry's bytes, respecting the overwrite flag; a failure changes no file |
| `FileCompression.ExtractEntries` | DragonJellyFileUtils/DragonJellyFileUtils/FileCompression.cs:101-125 | at most one report per file entry, and exactly one each when the loop completes |
| `FileCompression.ExtractSource` | DragonJellyFileUtils/DragonJellyFileUtils/FileCompression.cs:93-99 | an unreadable source fails with its open error (FileNotFound, DirectoryNotFound when its parent is missing too, UnauthorizedAccess for a directory, the ENOTDIR IOException for a file named with a trailing separator or reached through a file) and an unreadable container with invalid data, both before anything is extracted |
| `FileCompression.Decompress` | DragonJellyFileUtils/DragonJellyFileUtils/FileCompression.cs:77-127 | argument errors come first; a token signalled before the task starts leaves the files untouched, with no reports |
| `ExtractionProperties.ExtractEntryConfined` | DragonJellyFileUtils/DragonJellyFileUtils/FileCompression.cs:104-121 | one entry adds or replaces only a file whose full path starts with the destination string, and removes none |
| `ExtractionProperties.ExtractEntriesConfined` | DragonJellyFileUtils/DragonJellyFileUtils/FileCompression.cs:101-125 | the whole loop writes only under the destination prefix |
| `ExtractionProperties.DecompressConfined` | DragonJellyFileUtils/DragonJellyFileUtils/FileCompression.cs:77-127 | DecompressAsync writes nothing outside the destination prefix on any exit path |
| `ExtractionProperties.ExtractorIsGuarded` | DragonJellyFileUtils/DragonJellyFileUtils/FileCompression.cs:104-107 | the per-entry step keeps the current directory, stops at every entry the guard rejects, and never reports cancellation |
| `ExtractionProperties.EscapingEntryStops` | DragonJellyFileUtils/DragonJellyFileUtils/FileCompression.cs:101-107 | a rejected entry anywhere ahead means the loop never completes, and fails with something other than cancellation unless the token came first |
| `ExtractionProperties.EscapeEndsTheRun` | DragonJellyFileUtils/DragonJellyFileUtils/FileCompression.cs:101-107 | the loop never looks past an entry the guard rejects: its run equals the run over the archive cut just after that entry |
| `ExtractionProperties.StopEndsTheRun` | DragonJellyFileUtils/DragonJellyFileUtils/FileCompression.cs:101-107 | any step that keeps the current directory and stops at entry j makes the loop equal to the loop over the entries up to j |
| `ExtractionProperties.DecompressRejectsEscape` | DragonJellyFileUtils/DragonJellyFileUtils/FileCompression.cs:96-107 | a container holding an entry the guard rejects is never extracted completely, fails with something other than cancellation unless the token came first, and extracts nothing past that entry |
| `ExtractionProperties.DecompressRejectsFileAsDirectory` | DragonJellyFileUtils/DragonJellyFileUtils/FileCompression.cs:93 | a source that names a file but ends in a separator fails to open with the ENOTDIR IOException; no file changes and nothing is reported |
| `ExtractionProperties.EscapeRejected` | DragonJellyFileUtils/DragonJellyFileUtils/FileCompression.cs:104-107 | with destination "/out", the entry "../../escape.txt" resolves to "/escape.txt" and is rejected |
| `ExtractionProperties.SiblingPassesGuard` | DragonJellyFileUtils/DragonJellyFileUtils/FileCompression.cs:104-107 | with destination "/out", the entry "../outside/x" resolves to "/outside/x", outside "/out", and still passes the string-prefix guard |
| `ExtractionProperties.RelativeDestinationEscapes` | DragonJellyFileUtils/DragonJellyFileUtils/FileCompression.cs:104-106 | the guard compares a rooted full path with the destination as given, so every entry fails it for a relative destination |
| `ExtractionProperties.RelativeDestinationNeverCompletes` | DragonJellyFileUtils/DragonJellyFileUtils/FileCompression.cs:101-107 | extracting a non-empty container into a relative destination never completes and, unless cancelled first, fails at the first entry |
| `ExtractionProperties.ExtractEntriesProgress` | DragonJellyFileUtils/DragonJellyFileUtils/FileCompression.cs:119-123 | reports carry the total, never decrease, stay within the bytes of the file entries ahead, and reach them when the loop completes |
| `ExtractionProperties.FileBytesAreAllBytes` | DragonJellyFileUtils/DragonJellyFileUtils/FileCompression.cs:96-99 | when directory markers carry no bytes, the file entries hold the whole total |
| `ExtractionProperties.DecompressProgress` | DragonJellyFileUtils/DragonJellyFileUtils/FileCompression.cs:96-123 | against the sum of all entry lengths, reports never decrease or exceed it; a completed run reports once per file entry |
| `ExtractionProperties.DecompressReachesTotal` | DragonJellyFileUtils/DragonJellyFileUtils/FileCompression.cs:96-123 | when markers carry no bytes, a completed extraction's last report equals the total |
| `ExtractionProperties.ExtractorIsWriting` | DragonJellyFileUtils/DragonJellyFileUtils/FileCompression.cs:109-121 | in a fixed current directory, the real step writes no file for a marker and exactly the entry's bytes at its target key for any other entry |
| `ExtractionProperties.CompletedRunKeeps` | DragonJellyFileUtils/DragonJellyFileUtils/FileCompression.cs:101-125 | a completed loop leaves every file that no remaining file entry targets with its old bytes |
| `ExtractionProperties.CompletedRunWrites` | DragonJellyFileUtils/DragonJellyFileUtils/FileCompression.cs:101-125 | a completed loop leaves file entry j's bytes at its target when no later file entry targets the same file |
| `ExtractionProperties.DecompressWritesEntries` | DragonJellyFileUtils/DragonJellyFileUtils/FileCompression.cs:77-127 | after a completed DecompressAsync, the target of every file entry that no later file entry reuses holds that entry's bytes |
| `ExtractionProperties.DecompressKeepsOthers` | DragonJellyFileUtils/DragonJellyFileUtils/FileCompression.cs:77-127 | after a completed DecompressAsync, every file no entry targets keeps its bytes |
| `DirectorySizes.GetDirectorySize` | DragonJellyFileUtils/DragonJellyFileUtils/FileCompression.cs:129-151 | a missing directory fails with DirectoryNotFound, and only then; otherwise the size is the total length of every file anywhere below (the DriveUtils copy at DriveUtils.cs:43-61 computes the same sum) |
| `DirectorySizes.TreeSizeIsFlat` | DragonJellyFileUtils/DragonJellyFileUtils/DriveUtils.cs:52-60 | the recursion over direct files and subdirectories equals the flat sum over all files below |
| `DirectorySizes.SubtreeSizesIsFlat` | DragonJellyFileUtils/DragonJellyFileUtils/FileCompression.cs:145-148 | summing the sizes of any set of subdirectories equals the flat sum over the files below them |
| `DirectorySizes.RangeBytesIsFileBytes` | DragonJellyFileUtils/DragonJellyFileUtils/FileCompression.cs:140-143 | adding the lengths of a duplicate-free list of files one by one gives the sum over the set |
| `FileManager.OverwritePass` | DragonJellyFileUtils/DragonJellyFileUtils/FileManager.cs:63-74 | the chunks are full 4096-byte chunks and a final partial one, ceil(size / 4096) of them summing to the size; byte o of the file is noise of pass o / 4096 at offset o % 4096 |
| `FileManagerProperties.ChunkedIsChunks` | DragonJellyFileUtils/DragonJellyFileUtils/FileManager.cs:68-74 | a chunk list has the loop's shape if and only if it is the reference list: full chunks, then the remainder |
| `FileManager.SecureDelete` | DragonJellyFileUtils/DragonJellyFileUtils/FileManager.cs:54-80 | a missing file leaves everything untouched; an existing one is overwritten with as many bytes as it holds, then removed, and nothing else changes |
| `FileManager.CopyChecks` | DragonJellyFileUtils/DragonJellyFileUtils/FileManager.cs:13-23 | the checks pass if and only if the source is non-blank and exists, the destination is non-blank, and overwrite is set or no file is there; a failing check reports the first failing test in source order: blank source, missing source, blank destination, existing destination |
| `FileManager.CopyStreams` | DragonJellyFileUtils/DragonJellyFileUtils/FileManager.cs:31-33 | an unreadable source fails with its open error; a readable source copied onto itself fails with a sharing violation; a completed copy sets exactly the destination to the source's bytes; a failed one changes nothing |
| `FileManager.CopyFileAsWritten` | DragonJellyFileUtils/DragonJellyFileUtils/FileManager.cs:11-34 | a failed check fails with its error before any effect; a completed copy sets exactly the destination to the source's bytes; a failure leaves the files unchanged |
| `FileManager.CopyFile` | DragonJellyFileUtils/DragonJellyFileUtils/FileManager.cs:11-34 | the same, with the destination's directory created only when it names one |
| `FileManagerProperties.BareNameCopyFails` | DragonJellyFileUtils/DragonJellyFileUtils/FileManager.cs:25-29 | as written, every copy to a bare file name that passed the checks fails with the argument error of `CreateDirectory("")` |
| `FileManagerProperties.BareNameCopyWorks` | DragonJellyFileUtils/DragonJellyFileUtils/FileManager.cs:25-33 | corrected, such a copy into an existing current directory completes and places the source's bytes under the bare name |
| `FileManagerProperties.CopyAgreesOffBareNames` | DragonJellyFileUtils/DragonJellyFileUtils/FileManager.cs:25-29 | the correction changes nothing when the destination names a non-blank directory |
| `FileManagerProperties.CopyToBareNameExample` | DragonJellyFileUtils/DragonJellyFileUtils/FileManager.cs:25-29 | copying "a.txt" to "b.txt" in the current directory fails as written and completes corrected |
| `FileManager.MoveFile` | DragonJellyFileUtils/DragonJellyFileUtils/FileManager.cs:36-40 | a failed copy leaves every file as it was and the source is not deleted; a completed move puts the source's bytes at the destination and removes the source |
| `FileManager.MoveFileAsWritten` | DragonJellyFileUtils/DragonJellyFileUtils/FileManager.cs:36-40 | the move over the copy as written: a failed copy keeps every file and the source; a move to a bare file name that passes the checks fails with the argument error; a completed move relocates the source's bytes |
| `FileManager.CreateEmptyFile` | DragonJellyFileUtils/DragonJellyFileUtils/FileManager.cs:42-52 | a blank path or an existing file is rejected; otherwise an empty file is created exactly when the path names no file or directory, is not the root, has no trailing separator, passes through no file and its parent directory exists; a directory or the root gives UnauthorizedAccess, a path through a file or a file named with a trailing separator gives the ENOTDIR IOException, any other trailing separator UnauthorizedAccess, and a missing parent DirectoryNotFound |
| `FileManagerProperties.CreateEmptyThenExists` | DragonJellyFileUtils/DragonJellyFileUtils/FileManager.cs:42-52 | a created file exists, reads back empty, and a second creation fails |
| `DriveUtils.NormaliseDrive` | DragonJellyFileUtils/DragonJellyFileUtils/DriveUtils.cs:23-26 | the drive name ends with the separator, is extended by at most that separator, and is kept if it had one |
| `DriveUtils.NormaliseIdempotent` | DragonJellyFileUtils/DragonJellyFileUtils/DriveUtils.cs:23-26 | normalising twice is normalising once |
| `DriveUtils.ItemSize` | DragonJellyFileUtils/DragonJellyFileUtils/DriveUtils.cs:28-30 | a missing item fails with FileNotFound, or DirectoryNotFound when its parent is missing too; a directory needs the total length of every file below it; a file needs its length |
| `DriveUtils.DriveListed` | DragonJellyFileUtils/DragonJellyFileUtils/DriveUtils.cs:32 | a drive is listed exactly when some drive's name equals the normalised name ignoring case |
| `DriveUtils.CanMoveItem` | DragonJellyFileUtils/DragonJellyFileUtils/DriveUtils.cs:11-41 | the errors come in source order; DriveNotFound exactly when the item is sized but no drive matches the normalised name; a success reports the drive's free space, the item's size and whether the one covers the other |
| `DriveUtils.TrailingSeparatorIrrelevant` | DragonJellyFileUtils/DragonJellyFileUtils/DriveUtils.cs:23-26 | a drive named with or without its trailing separator gives the same answer |
| `DriveUtils.DriveLookupIgnoresCase` | DragonJellyFileUtils/DragonJellyFileUtils/DriveUtils.cs:32 | the drive lookup gives the same answer for names that differ only in letter case |
| `DriveUtils.DirectoryNeedsItsFiles` | DragonJellyFileUtils/DragonJellyFileUtils/DriveUtils.cs:28-40 | for a directory on a listed drive, the answer compares the free space with the total length of every file below the directory |

## Left out

- `null` arguments are not modelled: a string is never null, and the null tests
  of `string.IsNullOrWhiteSpace` and `ThrowIfNull` become blank-string tests.
- Only ASCII letters are folded in the case-insensitive comparisons of ".zip"
  and of drive names; .NET's ordinal-ignore-case folds more of Unicode.
- `long` overflow of byte counts is not modelled: counts are unbounded
  naturals, since no tree reaches 2^63 bytes.
- Paths follow .NET on Unix: '/' is the only separator and there are no drive
  letters or UNC prefixes.
- `ProgressReport.Percentage` is floating point and is left out; a report is
  its two counts.
- The parallel sums (`AsParallel`) in DriveUtils are modelled as one sequential
  sum. Addition of naturals does not depend on order.
- The zip format and the deflate codec are foreign code. The model takes them
  as the `pack` and `unpack` parameters and proves nothing about compression
  ratios or the level's effect.
- `async`/`Task` scheduling and concurrent access by other processes are left
  out. Each operation runs alone and in order. Cancellation is observed either
  before the task starts or at one of the per-entry checks.
- The cancellation token passed to `CopyToAsync` in CopyFileAsync and
  MoveFileAsync is not modelled: a copy either completes or fails on its own.
- Stream buffer sizes (81920, 4096) do not change what is written, so they
  appear only in the secure delete's chunking.
- `Random.NextBytes` is the `noise` parameter.
- The order of `GetFiles("*", SearchOption.AllDirectories)` is the `walk`
  parameter. The directory results assume it lists each file below the source
  once. When the container lies inside the source directory it may itself be
  enumerated; the model then archives it as an ordinary file.
- `File.GetAttributes` is modelled as "is a directory" or "is a file". Symbolic
  links, access rights and other attribute flags are left out.
- `DriveInfo.GetDrives` and `AvailableFreeSpace` come from the operating
  system. They are the `drives` and `freeSpace` parameters.
- Errors raised while writing during the secure delete are not modelled: an
  existing file is always overwritten and deleted.
- `Paths.GetDirectoryName` keeps repeated separators inside its result, where
  .NET collapses them. Every caller resolves the result to a key, in which the
  empty segment disappears, so no modelled operation sees the difference.
- `FileCompression.ExtractSource` reads the whole container once, before the
  loop. ZipArchive reads each entry's data from the still-open file when that
  entry is extracted. The two differ only when a file entry's target is the
  container itself and overwrite is set: FileMode.Create then truncates the
  container under the reader, and that entry and the later ones read what is
  left. The model still writes the entries' bytes in that case, and so
  `ExtractEntry`, `CompletedRunWrites` and `DecompressWritesEntries` promise
  contents the program does not produce there.
- Compressing and then extracting is not stated as one round-trip lemma. It
  would rest on the container codec (`unpack` of `pack` giving the entries
  back), on relative entry names resolving back to the source's files, and on
  those files having distinct targets. The model proves the two halves
  separately: what a completed compression puts into the container, and what a
  completed extraction leaves at each entry's target.
- The extraction loop takes its per-entry step as a parameter so that the loop
  lemmas hold for any step; `Decompress` passes `ExtractEntry`.

## Findings

| source | as written | input that shows it | evidently intended | confidence | as-written member | corrected member |
|---|---|---|---|---|---|---|
| DragonJellyFileUtils/DragonJellyFileUtils/FileManager.cs:25-29 | `Directory.CreateDirectory` is called on `Path.GetDirectoryName(destination)` whenever `Directory.Exists` denies it, and for a bare file name that is the empty string, which `CreateDirectory` rejects with an ArgumentException | `CopyFileAsync("a.txt", "b.txt")` with "a.txt" in the current directory | the copy lands in the current directory, as `CompressAsync` does by skipping blank directory names (FileCompression.cs:26-28) | not executed | `FileManager.CopyFileAsWritten`, `FileManagerProperties.BareNameCopyFails`, `FileManagerProperties.CopyToBareNameExample`, `FileManager.MoveFileAsWritten` | `FileManager.CopyFile`, `FileManagerProperties.BareNameCopyWorks`, `FileManager.MoveFile` |

`MoveFileAsync` calls `CopyFileAsync` and inherits the same failure:
`FileManager.MoveFileAsWritten` is the move over the copy as written, and
`FileManager.MoveFile` the move over the corrected `CopyFile`.

The traversal guard has two weaknesses, which this model proves about the
code as written rather than correcting:

- `ExtractionProperties.SiblingPassesGuard`: a sibling directory whose name
  extends the destination's passes the guard.
- `ExtractionProperties.RelativeDestinationEscapes`: every entry fails the
  guard when the destination is relative.

=== FILE: compression_properties.dfy ===
/** What CompressAsync promises about the container it writes and the progress
    it reports, proved of the model in FileCompression. */
module CompressionProperties {
  import opened Results
  import opened Paths
  import opened FileSystems
  import opened DirectorySizes
  import opened FileCompression

  /** Entry j is named by the path of walk[i + j] below the root. */
  predicate NamedAfter(entries: seq<Entry>, root: Key, walk: seq<Key>, i: nat) {
    forall j :: 0 <= j < |entries| ==> NamedAt(entries, root, walk, i, j)
  }

  predicate NamedAt(entries: seq<Entry>, root: Key, walk: seq<Key>, i: nat, j: nat)
    requires j < |entries|
  {
    i + j < |walk| && entries[j].name == RelativePath(root, walk[i + j])
  }

  /** The first n entries hold the bytes of the files walk[i], ..., walk[i + n - 1]. */
  predicate HoldsFiles(fs: FileSystem, entries: seq<Entry>, walk: seq<Key>, i: nat, n: nat) {
    forall j :: 0 <= j < n ==> HoldsFileAt(fs, entries, walk, i, j)
  }

  predicate HoldsFileAt(fs: FileSystem, entries: seq<Entry>, walk: seq<Key>, i: nat, j: nat) {
    j < |entries| && i + j < |walk| && walk[i + j] in fs.files && entries[j].data == fs.files[walk[i + j]]
  }

  /** Entry j of a directory archive is named by the path of the j-th
      enumerated file below the root. */
  lemma {:induction false} ArchiveFilesNames(fs: FileSystem, root: Key, walk: seq<Key>, i: nat,
                                            cancel: Cancellation, total: int, processed: nat)
    requires i <= |walk|
    ensures NamedAfter(ArchiveFiles(fs, root, walk, i, cancel, total, processed).entries, root, walk, i)
    decreases |walk| - i
  {
    if i < |walk| && !CancelledAt(cancel, i) && walk[i] in fs.files {
      var done := processed + |fs.files[walk[i]]|;
      ArchiveFilesNames(fs, root, walk, i + 1, cancel, total, done);
      var rest := ArchiveFiles(fs, root, walk, i + 1, cancel, total, done);
      var r := ArchiveFiles(fs, root, walk, i, cancel, total, processed);
      assert r.entries == [Entry(RelativePath(root, walk[i]), fs.files[walk[i]])] + rest.entries;
      NamedAfterCons(Entry(RelativePath(root, walk[i]), fs.files[walk[i]]), rest.entries, root, walk, i);
    }
  }

  lemma NamedAfterCons(e: Entry, rest: seq<Entry>, root: Key, walk: seq<Key>, i: nat)
    requires i < |walk| && e.name == RelativePath(root, walk[i])
    requires NamedAfter(rest, root, walk, i + 1)
    ensures NamedAfter([e] + rest, root, walk, i)
  {
    var all := [e] + rest;
    forall j | 0 <= j < |all| ensures NamedAt(all, root, walk, i, j) {
      if j > 0 {
        assert NamedAt(rest, root, walk, i + 1, j - 1);
        assert all[j] == rest[j - 1];
        assert i + j == (i + 1) + (j - 1);
      }
    }
  }

  /** Once its report is out, entry j holds the bytes of the j-th enumerated file. */
  lemma {:induction false} ArchiveFilesData(fs: FileSystem, root: Key, walk: seq<Key>, i: nat,
                                           cancel: Cancellation, total: int, processed: nat)
    requires i <= |walk|
    ensures var r := ArchiveFiles(fs, root, walk, i, cancel, total, processed);
            HoldsFiles(fs, r.entries, walk, i, |r.reports|)
    decreases |walk| - i
  {
    if i < |walk| && !CancelledAt(cancel, i) && walk[i] in fs.files {
      var done := processed + |fs.files[walk[i]]|;
      ArchiveFilesData(fs, root, walk, i + 1, cancel, total, done);
      var rest := ArchiveFiles(fs, root, walk, i + 1, cancel, total, done);
      var r := ArchiveFiles(fs, root, walk, i, cancel, total, processed);
      assert r.entries == [Entry(RelativePath(root, walk[i]), fs.files[walk[i]])] + rest.entries;
      assert |r.reports| == |rest.reports| + 1;
      HoldsFilesCons(fs, Entry(RelativePath(root, walk[i]), fs.files[walk[i]]), rest.entries, walk, i, |rest.reports|);
    }
  }

  lemma HoldsFilesCons(fs: FileSystem, e: Entry, rest: seq<Entry>, walk: seq<Key>, i: nat, n: nat)
    requires i < |walk| && walk[i] in fs.files && e.data == fs.files[walk[i]]
    requires HoldsFiles(fs, rest, walk, i + 1, n)
    ensures HoldsFiles(fs, [e] + rest, walk, i, n + 1)
  {
    var all := [e] + rest;
    forall j | 0 <= j < n + 1 ensures HoldsFileAt(fs, all, walk, i, j) {
      if j > 0 {
        assert HoldsFileAt(fs, rest, walk, i + 1, j - 1);
        assert all[j] == rest[j - 1];
        assert i + j == (i + 1) + (j - 1);
      }
    }
  }

  /** Report j carries the total and the bytes of walk[i], ..., walk[i + j] on top of `processed`. */
  predicate RunningTotals(fs: FileSystem, reports: seq<ProgressReport>, walk: seq<Key>, i: nat, total: int, processed: nat) {
    forall j :: 0 <= j < |reports| ==> RunningTotalAt(fs, reports, walk, i, total, processed, j)
  }

  predicate RunningTotalAt(fs: FileSystem, reports: seq<ProgressReport>, walk: seq<Key>, i: nat, total: int, processed: nat, j: nat)
    requires j < |reports|
  {
    i + j + 1 <= |walk| && reports[j] == ProgressReport(total, processed + RangeBytes(fs, walk, i, i + j + 1))
  }

  /** Each report of a directory archive carries the recursive size as the total
      and the bytes of the files archived so far. */
  lemma {:induction false} ArchiveFilesProgress(fs: FileSystem, root: Key, walk: seq<Key>, i: nat,
                                               cancel: Cancellation, total: int, processed: nat)
    requires i <= |walk|
    ensures RunningTotals(fs, ArchiveFiles(fs, root, walk, i, cancel, total, processed).reports, walk, i, total, processed)
    decreases |walk| - i
  {
    if i < |walk| && !CancelledAt(cancel, i) && walk[i] in fs.files {
      var done := processed + |fs.files[walk[i]]|;
      ArchiveFilesProgress(fs, root, walk, i + 1, cancel, total, done);
      var rest := ArchiveFiles(fs, root, walk, i + 1, cancel, total, done);
      RunningTotalsCons(fs, rest.reports, walk, i, total, processed);
    }
  }

  lemma RunningTotalsCons(fs: FileSystem, rest: seq<ProgressReport>, walk: seq<Key>, i: nat, total: int, processed: nat)
    requires i < |walk|
    requires RunningTotals(fs, rest, walk, i + 1, total, processed + Length(fs, walk[i]))
    ensures RunningTotals(fs, [ProgressReport(total, processed + Length(fs, walk[i]))] + rest, walk, i, total, processed)
  {
    var all := [ProgressReport(total, processed + Length(fs, walk[i]))] + rest;
    forall j | 0 <= j < |all| ensures RunningTotalAt(fs, all, walk, i, total, processed, j) {
      if j == 0 {
        assert RangeBytes(fs, walk, i, i + 1) == Length(fs, walk[i]);
      } else {
        assert all[j] == rest[j - 1];
        assert RunningTotalAt(fs, rest, walk, i + 1, total, processed + Length(fs, walk[i]), j - 1);
        assert RangeBytes(fs, walk, i, i + j + 1) == Length(fs, walk[i]) + RangeBytes(fs, walk, i + 1, i + j + 1);
      }
    }
  }

  /** The token is checked before each entry: a cancelled run stops exactly at
      the first index the token covers, and a completed one met no signal. */
  lemma {:induction false} ArchiveFilesCancellation(fs: FileSystem, root: Key, walk: seq<Key>, i: nat,
                                                   cancel: Cancellation, total: int, processed: nat)
    requires i <= |walk|
    ensures var r := ArchiveFiles(fs, root, walk, i, cancel, total, processed);
            r.status == Failed(Cancelled) ==> |r.entries| == |r.reports| && CancelledAt(cancel, i + |r.entries|)
    ensures var r := ArchiveFiles(fs, root, walk, i, cancel, total, processed);
            forall j :: i <= j < i + |r.reports| ==> !CancelledAt(cancel, j)
    decreases |walk| - i
  {
    if i < |walk| && !CancelledAt(cancel, i) && walk[i] in fs.files {
      ArchiveFilesCancellation(fs, root, walk, i + 1, cancel, total, processed + |fs.files[walk[i]]|);
    }
  }

  /** The bytes of a stretch of the walk are the bytes of its two halves. */
  lemma {:induction false} RangeBytesSplit(fs: FileSystem, ks: seq<Key>, lo: nat, mid: nat, hi: nat)
    requires lo <= mid <= hi <= |ks|
    ensures RangeBytes(fs, ks, lo, hi) == RangeBytes(fs, ks, lo, mid) + RangeBytes(fs, ks, mid, hi)
    decreases mid - lo
  {
    if lo < mid {
      RangeBytesSplit(fs, ks, lo + 1, mid, hi);
    }
  }

  /** Running totals never decrease and never pass the bytes of the whole walk. */
  lemma RunningTotalsBounded(fs: FileSystem, reports: seq<ProgressReport>, walk: seq<Key>, i: nat, total: int, processed: nat)
    requires i <= |walk|
    requires RunningTotals(fs, reports, walk, i, total, processed)
    ensures NonDecreasing(reports)
    ensures ReportsWithin(reports, total, processed, processed + RangeBytes(fs, walk, i, |walk|))
  {
    forall j1, j2 | 0 <= j1 <= j2 < |reports|
      ensures reports[j1].bytesProcessed <= reports[j2].bytesProcessed
    {
      assert RunningTotalAt(fs, reports, walk, i, total, processed, j1);
      assert RunningTotalAt(fs, reports, walk, i, total, processed, j2);
      RangeBytesSplit(fs, walk, i, i + j1 + 1, i + j2 + 1);
    }
    forall j | 0 <= j < |reports|
      ensures reports[j].totalBytes == total
      ensures processed <= reports[j].bytesProcessed <= processed + RangeBytes(fs, walk, i, |walk|)
    {
      assert RunningTotalAt(fs, reports, walk, i, total, processed, j);
      RangeBytesSplit(fs, walk, i, i + j + 1, |walk|);
    }
  }

  /** Over a walk of existing files the loop fails only on cancellation: it then
      stops exactly at the index the token names, and otherwise completes. */
  lemma {:induction false} ArchiveFilesOutcome(fs: FileSystem, root: Key, walk: seq<Key>, i: nat,
                                              cancel: Cancellation, total: int, processed: nat)
    requires i <= |walk|
    requires forall j :: i <= j < |walk| ==> walk[j] in fs.files
    ensures var r := ArchiveFiles(fs, root, walk, i, cancel, total, processed);
            && |r.entries| == |r.reports|
            && if cancel.BeforeEntry? && i < |walk| && cancel.index < |walk| then
                 r.status == Failed(Cancelled) && |r.entries| == (if cancel.index <= i then 0 else cancel.index - i)
               else
                 r.status == Completed
    decreases |walk| - i
  {
    if i < |walk| && !CancelledAt(cancel, i) {
      ArchiveFilesOutcome(fs, root, walk, i + 1, cancel, total, processed + |fs.files[walk[i]]|);
    }
  }

  /** The walk lists every file below root, each exactly once. */
  ghost predicate EnumeratesBelow(fs: FileSystem, root: Key, walk: seq<Key>) {
    && (forall i, j :: 0 <= i < j < |walk| ==> walk[i] != walk[j])
    && (set j | 0 <= j < |walk| :: walk[j]) == FilesBelow(fs, root)
  }

  /** When the walk enumerates the files GetDirectorySize sums, the whole walk
      carries exactly the directory's size. */
  lemma WalkBytesAreDirectorySize(fs: FileSystem, root: Key, walk: seq<Key>)
    requires WellFormed(fs) && root in fs.dirs
    requires EnumeratesBelow(fs, root, walk)
    ensures RangeBytes(fs, walk, 0, |walk|) == GetDirectorySize(fs, root).value
    ensures forall j :: 0 <= j < |walk| ==> walk[j] in fs.files
  {
    RangeBytesIsFileBytes(fs, walk, 0, |walk|);
    forall j | 0 <= j < |walk| ensures walk[j] in fs.files {
      assert walk[j] in FilesBelow(fs, root);
    }
  }

  /** Archiving a directory: entry j is the j-th enumerated file under its
      relative name and with its bytes; every report carries GetDirectorySize
      and a running sum that never decreases nor passes it; a completed run has
      archived every file and its last report reaches the total. */
  lemma DirectoryArchive(fs: FileSystem, source: string, cancel: Cancellation, walk: seq<Key>)
    requires WellFormed(fs) && source != "" && KeyIn(fs, source) in fs.dirs
    requires EnumeratesBelow(fs, KeyIn(fs, source), walk)
    ensures var r := ArchiveSource(fs, source, cancel, walk);
            var total := GetDirectorySize(fs, KeyIn(fs, source)).value;
            && |r.entries| == |r.reports|
            && NamedAfter(r.entries, KeyIn(fs, source), walk, 0)
            && HoldsFiles(fs, r.entries, walk, 0, |r.entries|)
            && ReportsWithin(r.reports, total, 0, total)
            && NonDecreasing(r.reports)
            && (r.status == Completed ==>
                  |r.entries| == |walk| && (r.reports != [] ==> r.reports[|r.reports| - 1].bytesProcessed == total))
  {
    var root := KeyIn(fs, source);
    var total := GetDirectorySize(fs, root).value;
    WalkBytesAreDirectorySize(fs, root, walk);
    ArchiveFilesNames(fs, root, walk, 0, cancel, total, 0);
    ArchiveFilesData(fs, root, walk, 0, cancel, total, 0);
    ArchiveFilesProgress(fs, root, walk, 0, cancel, total, 0);
    ArchiveFilesOutcome(fs, root, walk, 0, cancel, total, 0);
    var r := ArchiveFiles(fs, root, walk, 0, cancel, total, 0);
    RunningTotalsBounded(fs, r.reports, walk, 0, total, 0);
    if r.status == Completed && r.reports != [] {
      assert RunningTotalAt(fs, r.reports, walk, 0, total, 0, |r.reports| - 1);
    }
  }

  /** Entry j of a directory archive is named by the segments of the j-th
      enumerated file below the root, joined by separators. */
  lemma DirectoryEntryNames(fs: FileSystem, source: string, cancel: Cancellation, walk: seq<Key>)
    requires WellFormed(fs) && source != "" && KeyIn(fs, source) in fs.dirs
    requires EnumeratesBelow(fs, KeyIn(fs, source), walk)
    ensures var r := ArchiveSource(fs, source, cancel, walk);
            forall j :: 0 <= j < |r.entries| ==>
              j < |walk| && KeyIn(fs, source) < walk[j] && r.entries[j].name == Join(walk[j][|KeyIn(fs, source)|..])
  {
    var root := KeyIn(fs, source);
    var r := ArchiveSource(fs, source, cancel, walk);
    DirectoryArchive(fs, source, cancel, walk);
    forall j | 0 <= j < |r.entries| ensures j < |walk| && root < walk[j] && r.entries[j].name == Join(walk[j][|root|..]) {
      assert NamedAt(r.entries, root, walk, 0, j);
      assert walk[j] in FilesBelow(fs, root);
      RelativePathBelow(root, walk[j]);
    }
  }

  /** Cancellation observed before entry k of a directory leaves exactly k
      entries and k reports; without it every file is archived. */
  lemma DirectoryArchiveStops(fs: FileSystem, source: string, cancel: Cancellation, walk: seq<Key>)
    requires source != "" && KeyIn(fs, source) in fs.dirs
    requires forall j :: 0 <= j < |walk| ==> walk[j] in fs.files
    ensures var r := ArchiveSource(fs, source, cancel, walk);
            if cancel.BeforeEntry? && cancel.index < |walk| then
              r.status == Failed(Cancelled) && |r.entries| == |r.reports| == cancel.index
            else
              r.status == Completed && |r.entries| == |r.reports| == |walk|
  {
    var root := KeyIn(fs, source);
    ArchiveFilesOutcome(fs, root, walk, 0, cancel, GetDirectorySize(fs, root).value, 0);
  }

  /** Archiving a single file: one entry named by FileInfo.Name, the file name of
      the path as given (a separator-free suffix of it), holding its bytes, and
      one report whose processed count equals its GetFileSize total. The
      per-entry token check does not apply. */
  lemma SingleFileArchive(fs: FileSystem, source: string, cancel: Cancellation, walk: seq<Key>)
    requires !IsBlank(source) && FileExists(fs, source) && KeyIn(fs, source) !in fs.dirs
    ensures var r := ArchiveSource(fs, source, cancel, walk);
            var data := fs.files[KeyIn(fs, source)];
            && r.status == Completed
            && r.entries == [Entry(GetFileName(source), data)]
            && Separator !in r.entries[0].name && EndsWith(source, r.entries[0].name)
            && GetFileSize(fs, source) == Success(|data|)
            && r.reports == [ProgressReport(|data|, |data|)]
  {
  }

  /** Forcing the ".zip" extension a second time changes nothing. */
  lemma ForceZipIdempotent(d: string)
    ensures ForceZipExtension(ForceZipExtension(d)) == ForceZipExtension(d)
  {
  }

  /** CompressAsync on a directory: once the destination is prepared and the
      empty container created, the container ends up holding the entries the
      run created (also when it is cancelled part-way), named after the
      enumerated files, and every report is measured against the directory's
      GetDirectorySize, which a completed run reaches. */
  lemma CompressDirectory(fs: FileSystem, source: string, destination: string, level: CustomLevel,
                          overwrite: bool, cancel: Cancellation, walk: seq<Key>,
                          pack: (seq<Entry>, CodecLevel) -> seq<byte>, fs1: FileSystem, fs2: FileSystem)
    requires WellFormed(fs)
    requires Prepare(fs, source, destination, overwrite) == Success(fs1)
    requires cancel != BeforeStart
    requires WriteFile(fs1, ResolveDestination(source, destination), []) == Success(fs2)
    requires KeyIn(fs2, source) in fs2.dirs && EnumeratesBelow(fs2, KeyIn(fs2, source), walk)
    ensures var run := Compress(fs, source, destination, level, overwrite, cancel, walk, pack);
            var total := GetDirectorySize(fs2, KeyIn(fs2, source)).value;
            && run.fs.files[KeyIn(fs, ResolveDestination(source, destination))] == pack(run.entries, MapLevel(level))
            && |run.entries| == |run.reports|
            && NamedAfter(run.entries, KeyIn(fs, source), walk, 0)
            && ReportsWithin(run.reports, total, 0, total)
            && NonDecreasing(run.reports)
            && (run.status == Completed ==>
                  |run.entries| == |walk| && (run.reports != [] ==> run.reports[|run.reports| - 1].bytesProcessed == total))
  {
    PrepareWellFormed(fs, source, destination, overwrite);
    WriteFileWellFormed(fs1, ResolveDestination(source, destination), []);
    DirectoryArchive(fs2, source, cancel, walk);
  }
}

=== FILE: directory_sizes.dfy ===
/** GetDirectorySize, as both FileCompression and DriveUtils implement it: the
    lengths of the files directly in a directory plus, recursively, the sizes of
    its subdirectories. The recursion is modelled literally (the parallel sum of
    DriveUtils is sequential here), and proved equal to the flat sum of the
    lengths of every file below the directory. */
module DirectorySizes {
  import opened Results
  import opened Paths
  import opened FileSystems

  /** FileInfo.Length of a file; 0 for anything that is not a file. */
  function Length(fs: FileSystem, k: Key): nat {
    if k in fs.files then |fs.files[k]| else 0
  }

  /** The sum of the lengths of the files among ks. */
  ghost function FileBytes(fs: FileSystem, ks: set<Key>): nat
    decreases ks
  {
    if ks == {} then 0
    else
      var k :| k in ks;
      Length(fs, k) + FileBytes(fs, ks - {k})
  }

  /** The sum of the lengths of ks[lo], ..., ks[hi - 1] (part of a file enumeration). */
  function RangeBytes(fs: FileSystem, ks: seq<Key>, lo: nat, hi: nat): nat
    requires lo <= hi <= |ks|
    decreases hi - lo
  {
    if lo == hi then 0 else Length(fs, ks[lo]) + RangeBytes(fs, ks, lo + 1, hi)
  }

  /** Every file strictly below d, at any depth. */
  ghost function FilesBelow(fs: FileSystem, d: Key): set<Key> {
    set k | k in fs.files && d < k
  }

  /** Every file strictly below one of the directories in ds. */
  ghost function FilesBelowAny(fs: FileSystem, ds: set<Key>): set<Key> {
    set k | k in fs.files && exists s :: s in ds && s < k
  }

  /** DirectoryInfo.GetFiles(): the files directly in d. */
  ghost function DirectFiles(fs: FileSystem, d: Key): set<Key> {
    set k | k in fs.files && d < k && |k| == |d| + 1
  }

  /** DirectoryInfo.GetDirectories(): the directories directly in d. */
  ghost function DirectSubdirs(fs: FileSystem, d: Key): set<Key> {
    set k | k in fs.dirs && d < k && |k| == |d| + 1
  }

  /** Every directory strictly below d: the termination measure of the recursion. */
  ghost function DirsBelow(fs: FileSystem, d: Key): set<Key> {
    set k | k in fs.dirs && d < k
  }

  lemma DirsBelowShrinks(fs: FileSystem, d: Key, s: Key)
    requires s in fs.dirs && d < s
    ensures DirsBelow(fs, s) < DirsBelow(fs, d)
  {
    assert s in DirsBelow(fs, d) && s !in DirsBelow(fs, s);
    forall k | k in DirsBelow(fs, s) ensures k in DirsBelow(fs, d) {
      assert d < k;
    }
  }

  /** The recursive size of an existing directory: the files directly in it,
      plus the size of each subdirectory. */
  ghost function TreeSize(fs: FileSystem, d: Key): nat
    decreases DirsBelow(fs, d), 1
  {
    FileBytes(fs, DirectFiles(fs, d)) + SubtreeSizes(fs, d, DirectSubdirs(fs, d))
  }

  /** The sum of TreeSize over some of the subdirectories of d. */
  ghost function SubtreeSizes(fs: FileSystem, d: Key, subdirs: set<Key>): nat
    requires subdirs <= DirectSubdirs(fs, d)
    decreases DirsBelow(fs, d), 0, subdirs
  {
    if subdirs == {} then 0
    else
      var s :| s in subdirs;
      DirsBelowShrinks(fs, d, s);
      TreeSize(fs, s) + SubtreeSizes(fs, d, subdirs - {s})
  }

  /** GetDirectorySize: DirectoryNotFound for a missing directory, otherwise the
      recursive size, which is the total length of every file below it. */
  ghost function GetDirectorySize(fs: FileSystem, d: Key): (r: Result<nat>)
    ensures r.Failure? <==> d !in fs.dirs
    ensures r.Failure? ==> r.error == DirectoryNotFound
    ensures r.Success? && WellFormed(fs) ==> r.value == FileBytes(fs, FilesBelow(fs, d))
  {
    if d !in fs.dirs then Failure(DirectoryNotFound)
    else
      assert WellFormed(fs) ==> TreeSize(fs, d) == FileBytes(fs, FilesBelow(fs, d)) by {
        if WellFormed(fs) {
          TreeSizeIsFlat(fs, d);
        }
      }
      Success(TreeSize(fs, d))
  }

  // ---------------------------------------------------------------------------
  // Sums over sets of paths
  // ---------------------------------------------------------------------------

  /** The sum does not depend on which element is taken first. */
  lemma FileBytesPick(fs: FileSystem, ks: set<Key>, k: Key)
    requires k in ks
    ensures FileBytes(fs, ks) == Length(fs, k) + FileBytes(fs, ks - {k})
    decreases ks
  {
    var j :| j in ks && FileBytes(fs, ks) == Length(fs, j) + FileBytes(fs, ks - {j});
    if j != k {
      FileBytesPick(fs, ks - {j}, k);
      FileBytesPick(fs, ks - {k}, j);
      assert ks - {j} - {k} == ks - {k} - {j};
    }
  }

  /** The sum over a disjoint union is the sum of the sums. */
  lemma {:induction false} FileBytesUnion(fs: FileSystem, a: set<Key>, b: set<Key>)
    requires a !! b
    ensures FileBytes(fs, a + b) == FileBytes(fs, a) + FileBytes(fs, b)
    decreases a
  {
    if a == {} {
      assert a + b == b;
    } else {
      var x :| x in a;
      FileBytesPick(fs, a + b, x);
      FileBytesPick(fs, a, x);
      assert (a + b) - {x} == (a - {x}) + b;
      FileBytesUnion(fs, a - {x}, b);
    }
  }

  /** Summing an enumeration that lists each path once gives the sum over its set. */
  lemma {:induction false} RangeBytesIsFileBytes(fs: FileSystem, ks: seq<Key>, lo: nat, hi: nat)
    requires lo <= hi <= |ks|
    requires forall i, j :: 0 <= i < j < |ks| ==> ks[i] != ks[j]
    ensures RangeBytes(fs, ks, lo, hi) == FileBytes(fs, set j | lo <= j < hi :: ks[j])
    decreases hi - lo
  {
    var all := set j | lo <= j < hi :: ks[j];
    if lo == hi {
      assert all == {};
    } else {
      RangeBytesIsFileBytes(fs, ks, lo + 1, hi);
      DropFirst(ks, lo, hi);
      FileBytesPick(fs, all, ks[lo]);
    }
  }

  /** Without its first element, a stretch of a duplicate-free enumeration is
      the set of the rest of the stretch. */
  lemma DropFirst(ks: seq<Key>, lo: nat, hi: nat)
    requires lo < hi <= |ks|
    requires forall i, j :: 0 <= i < j < |ks| ==> ks[i] != ks[j]
    ensures ks[lo] in (set j | lo <= j < hi :: ks[j])
    ensures (set j | lo <= j < hi :: ks[j]) - {ks[lo]} == (set j | lo + 1 <= j < hi :: ks[j])
  {
    var all := set j | lo <= j < hi :: ks[j];
    var rest := set j | lo + 1 <= j < hi :: ks[j];
    assert ks[lo] in all;
    forall x | x in rest ensures x in all - {ks[lo]} {
      var j :| lo + 1 <= j < hi && ks[j] == x;
    }
    forall x | x in all - {ks[lo]} ensures x in rest {
      var j :| lo <= j < hi && ks[j] == x;
    }
  }

  // ---------------------------------------------------------------------------
  // The recursion sums every file below the directory exactly once
  // ---------------------------------------------------------------------------

  /** The files below d are those directly in it and those below its subdirectories. */
  lemma FilesBelowSplit(fs: FileSystem, d: Key)
    requires WellFormed(fs)
    ensures FilesBelow(fs, d) == DirectFiles(fs, d) + FilesBelowAny(fs, DirectSubdirs(fs, d))
    ensures DirectFiles(fs, d) !! FilesBelowAny(fs, DirectSubdirs(fs, d))
  {
    var ds := DirectSubdirs(fs, d);
    forall k | k in FilesBelow(fs, d) && |k| != |d| + 1
      ensures k in FilesBelowAny(fs, ds)
    {
      var s := k[..|d| + 1];
      assert s in fs.dirs;
      assert d < s && s < k;
      assert s in ds;
    }
    forall k | k in FilesBelowAny(fs, ds) ensures d < k && |k| > |d| + 1 {
      var s :| s in ds && s < k;
    }
  }

  /** Siblings share no file below them. */
  lemma SiblingSplit(fs: FileSystem, d: Key, subdirs: set<Key>, s: Key)
    requires subdirs <= DirectSubdirs(fs, d) && s in subdirs
    ensures FilesBelowAny(fs, subdirs) == FilesBelow(fs, s) + FilesBelowAny(fs, subdirs - {s})
    ensures FilesBelow(fs, s) !! FilesBelowAny(fs, subdirs - {s})
  {
    forall k, t | k in FilesBelow(fs, s) && t in subdirs && t < k
      ensures t == s
    {
      assert t == k[..|t|] && s == k[..|s|] && |t| == |s|;
    }
    forall k | k in FilesBelowAny(fs, subdirs)
      ensures k in FilesBelow(fs, s) || k in FilesBelowAny(fs, subdirs - {s})
    {
      var t :| t in subdirs && t < k;
      if t != s {
        assert t in subdirs - {s};
      }
    }
  }

  lemma {:induction false} TreeSizeIsFlat(fs: FileSystem, d: Key)
    requires WellFormed(fs)
    ensures TreeSize(fs, d) == FileBytes(fs, FilesBelow(fs, d))
    decreases DirsBelow(fs, d), 1
  {
    var ds := DirectSubdirs(fs, d);
    SubtreeSizesIsFlat(fs, d, ds);
    FilesBelowSplit(fs, d);
    FileBytesUnion(fs, DirectFiles(fs, d), FilesBelowAny(fs, ds));
  }

  lemma {:induction false} SubtreeSizesIsFlat(fs: FileSystem, d: Key, subdirs: set<Key>)
    requires WellFormed(fs)
    requires subdirs <= DirectSubdirs(fs, d)
    ensures SubtreeSizes(fs, d, subdirs) == FileBytes(fs, FilesBelowAny(fs, subdirs))
    decreases DirsBelow(fs, d), 0, subdirs
  {
    if subdirs == {} {
      assert FilesBelowAny(fs, subdirs) == {};
    } else {
      var s :| s in subdirs && SubtreeSizes(fs, d, subdirs) == TreeSize(fs, s) + SubtreeSizes(fs, d, subdirs - {s});
      DirsBelowShrinks(fs, d, s);
      TreeSizeIsFlat(fs, s);
      SubtreeSizesIsFlat(fs, d, subdirs - {s});
      SiblingSplit(fs, d, subdirs, s);
      FileBytesUnion(fs, FilesBelow(fs, s), FilesBelowAny(fs, subdirs - {s}));
    }
  }
}

=== FILE: drive_utils.dfy ===
/** DriveUtils.CanMoveItem: whether an item fits in the free space of a
    destination drive. The drive list of DriveInfo.GetDrives and the free space
    DriveInfo reports are inputs; the item's size is GetDirectorySize for a
    directory and the file's length otherwise. */
module DriveUtils {
  import opened Results
  import opened Paths
  import opened FileSystems
  import opened DirectorySizes

  /** An entry of DriveInfo.GetDrives(), by its Name. */
  datatype Drive = Drive(name: string)

  /** The tuple (CanMove, AvailableSpace, RequiredSpace). */
  datatype SpaceCheck = SpaceCheck(canMove: bool, availableSpace: int, requiredSpace: int)

  /** The destination drive with a separator appended when it has none at its end. */
  function NormaliseDrive(d: string): (r: string)
    ensures EndsWithSeparator(r)
    ensures d <= r && |r| <= |d| + 1
    ensures EndsWithSeparator(d) ==> r == d
  {
    if EndsWithSeparator(d) then d else d + [Separator]
  }

  /** The `Any` over GetDrives: a scan from the first drive on for one whose
      name equals `name`, ignoring case. */
  function DriveListed(drives: seq<Drive>, name: string): (b: bool)
    ensures b <==> exists i :: 0 <= i < |drives| && EqualsIgnoreCase(drives[i].name, name)
    decreases |drives|
  {
    if drives == [] then false
    else if EqualsIgnoreCase(drives[0].name, name) then true
    else
      var rest := DriveListed(drives[1..], name);
      assert rest <==> exists i :: 1 <= i < |drives| && EqualsIgnoreCase(drives[i].name, name) by {
        if rest {
          var i :| 0 <= i < |drives[1..]| && EqualsIgnoreCase(drives[1..][i].name, name);
          assert drives[i + 1] == drives[1..][i];
        }
        if exists i :: 1 <= i < |drives| && EqualsIgnoreCase(drives[i].name, name) {
          var i :| 1 <= i < |drives| && EqualsIgnoreCase(drives[i].name, name);
          assert drives[1..][i - 1] == drives[i];
        }
      }
      rest
  }

  /** The space an item needs: File.GetAttributes fails for a missing path (with
      the directory blamed when the parent is missing too); a directory needs its
      GetDirectorySize, anything else its FileInfo.Length. */
  ghost function ItemSize(fs: FileSystem, path: string): (r: Result<nat>)
    ensures r.Failure? <==> !PathExists(fs, path) || (KeyIn(fs, path) !in fs.dirs && !FileExists(fs, path))
    ensures !PathExists(fs, path) ==> r == Failure(MissingError(fs, KeyIn(fs, path)))
    ensures PathExists(fs, path) && r.Failure? ==> r.error == FileNotFound
    ensures r.Success? && KeyIn(fs, path) in fs.dirs && WellFormed(fs) ==>
              r.value == FileBytes(fs, FilesBelow(fs, KeyIn(fs, path)))
    ensures r.Success? && KeyIn(fs, path) !in fs.dirs ==> r.value == |fs.files[KeyIn(fs, path)]|
  {
    if !PathExists(fs, path) then Failure(MissingError(fs, KeyIn(fs, path)))
    else if KeyIn(fs, path) in fs.dirs then GetDirectorySize(fs, KeyIn(fs, path))
    else if !FileExists(fs, path) then Failure(FileNotFound)
    else Success(Length(fs, KeyIn(fs, path)))
  }

  /** CanMoveItem. `freeSpace` is AvailableFreeSpace of the DriveInfo built from
      a drive name. */
  ghost function CanMoveItem(fs: FileSystem, sourcePath: string, destinationDrive: string,
                             drives: seq<Drive>, freeSpace: string -> int): (r: Result<SpaceCheck>)
    ensures IsBlank(sourcePath) ==> r == Failure(ArgumentError("sourcePath"))
    ensures !IsBlank(sourcePath) && IsBlank(destinationDrive) ==> r == Failure(ArgumentError("destinationDrive"))
    ensures !IsBlank(sourcePath) && !IsBlank(destinationDrive) && ItemSize(fs, sourcePath).Failure? ==>
              r == Failure(ItemSize(fs, sourcePath).error)
    ensures r == Failure(DriveNotFound) <==>
              && !IsBlank(sourcePath) && !IsBlank(destinationDrive) && ItemSize(fs, sourcePath).Success?
              && !DriveListed(drives, NormaliseDrive(destinationDrive))
    ensures r.Success? ==>
              && DriveListed(drives, NormaliseDrive(destinationDrive))
              && r.value.requiredSpace == ItemSize(fs, sourcePath).value
              && r.value.availableSpace == freeSpace(NormaliseDrive(destinationDrive))
              && (r.value.canMove <==> r.value.availableSpace >= r.value.requiredSpace)
  {
    if IsBlank(sourcePath) then Failure(ArgumentError("sourcePath"))
    else if IsBlank(destinationDrive) then Failure(ArgumentError("destinationDrive"))
    else
      var drive := NormaliseDrive(destinationDrive);
      match ItemSize(fs, sourcePath)
      case Failure(err) => Failure(err)
      case Success(itemSize) =>
        if !DriveListed(drives, drive) then Failure(DriveNotFound)
        else
          var available := freeSpace(drive);
          Success(SpaceCheck(available >= itemSize, available, itemSize))
  }

  // ---------------------------------------------------------------------------
  // Properties
  // ---------------------------------------------------------------------------

  /** Normalising twice is normalising once. */
  lemma NormaliseIdempotent(d: string)
    ensures NormaliseDrive(NormaliseDrive(d)) == NormaliseDrive(d)
  {
  }

  /** A drive named with or without its trailing separator gives the same answer. */
  lemma TrailingSeparatorIrrelevant(fs: FileSystem, sourcePath: string, destinationDrive: string,
                                    drives: seq<Drive>, freeSpace: string -> int)
    requires !IsBlank(destinationDrive) && !EndsWithSeparator(destinationDrive)
    ensures CanMoveItem(fs, sourcePath, destinationDrive, drives, freeSpace)
            == CanMoveItem(fs, sourcePath, destinationDrive + [Separator], drives, freeSpace)
  {
    var d := destinationDrive + [Separator];
    assert !IsBlank(d) by {
      assert !IsWhiteSpace(d[|d| - 1]);
    }
    assert NormaliseDrive(d) == d;
  }

  /** The drive lookup ignores letter case. */
  lemma DriveLookupIgnoresCase(drives: seq<Drive>, a: string, b: string)
    requires EqualsIgnoreCase(a, b)
    ensures DriveListed(drives, a) <==> DriveListed(drives, b)
  {
    if DriveListed(drives, a) {
      var i :| 0 <= i < |drives| && EqualsIgnoreCase(drives[i].name, a);
      assert EqualsIgnoreCase(drives[i].name, b);
    }
    if DriveListed(drives, b) {
      var i :| 0 <= i < |drives| && EqualsIgnoreCase(drives[i].name, b);
      assert EqualsIgnoreCase(drives[i].name, a);
    }
  }

  /** For a directory in a well-formed tree the required space is the total
      length of every file below it, and the answer is whether that fits. */
  lemma DirectoryNeedsItsFiles(fs: FileSystem, sourcePath: string, destinationDrive: string,
                               drives: seq<Drive>, freeSpace: string -> int)
    requires WellFormed(fs) && !IsBlank(sourcePath) && !IsBlank(destinationDrive)
    requires KeyIn(fs, sourcePath) in fs.dirs
    requires DriveListed(drives, NormaliseDrive(destinationDrive))
    ensures var r := CanMoveItem(fs, sourcePath, destinationDrive, drives, freeSpace);
            var needed := FileBytes(fs, FilesBelow(fs, KeyIn(fs, sourcePath)));
            r == Success(SpaceCheck(freeSpace(NormaliseDrive(destinationDrive)) >= needed,
                                    freeSpace(NormaliseDrive(destinationDrive)), needed))
  {
    assert sourcePath != "";
  }
}

=== FILE: extraction_properties.dfy ===
/** What DecompressAsync promises: the traversal guard confines every write to
    paths that start with the destination, a failing guard stops the run, and
    the progress reports count the bytes of the file entries against the total
    of all entry lengths. */
module ExtractionProperties {
  import opened Results
  import opened Paths
  import opened FileSystems
  import opened FileCompression

  // ---------------------------------------------------------------------------
  // Confinement
  // ---------------------------------------------------------------------------

  /** Extraction only adds or replaces files, and only at paths whose rendering
      starts with the destination string. */
  predicate Confined(before: map<Key, seq<byte>>, after: map<Key, seq<byte>>, destination: string) {
    && before.Keys <= after.Keys
    && forall k :: k in after && (k !in before || after[k] != before[k]) ==> StartsWith(Render(k), destination)
  }

  lemma ConfinedTrans(a: map<Key, seq<byte>>, b: map<Key, seq<byte>>, c: map<Key, seq<byte>>, destination: string)
    requires Confined(a, b, destination) && Confined(b, c, destination)
    ensures Confined(a, c, destination)
  {
    forall k | k in c && (k !in a || c[k] != a[k]) ensures StartsWith(Render(k), destination) {
      if k in b && c[k] == b[k] {
        assert k !in a || b[k] != a[k];
      }
    }
  }

  /** A full path that does not end in a separator is the rendering of its key. */
  lemma FullPathIsRendering(fs: FileSystem, s: string)
    requires !EndsWithSeparator(FullPath(fs.cwd, s))
    ensures Render(KeyIn(fs, FullPath(fs.cwd, s))) == FullPath(fs.cwd, s)
  {
    KeyOfRender(fs.cwd, KeyOf(fs.cwd, s));
  }

  /** One entry writes at most the file its guarded target names. */
  lemma ExtractEntryConfined(fs: FileSystem, destination: string, e: Entry, overwrite: bool)
    ensures Confined(fs.files, ExtractEntry(fs, destination, e, overwrite).fs.files, destination)
  {
    var s := ExtractEntry(fs, destination, e, overwrite);
    if s.Extracted? && !IsDirectoryMarker(e) {
      FullPathIsRendering(fs, Combine(destination, e.name));
    }
  }

  /** Every file a loop of confined steps writes lies under the destination prefix. */
  lemma {:induction false} ExtractEntriesConfined(fs: FileSystem, archive: seq<Entry>, i: nat, step: (FileSystem, Entry) -> EntryStep,
                                                  cancel: Cancellation, total: int, processed: nat, destination: string)
    requires i <= |archive|
    requires forall f: FileSystem, e: Entry :: Confined(f.files, step(f, e).fs.files, destination)
    ensures Confined(fs.files, ExtractEntries(fs, archive, i, step, cancel, total, processed).fs.files, destination)
    decreases |archive| - i
  {
    if i < |archive| && !CancelledAt(cancel, i) {
      var s := step(fs, archive[i]);
      if s.Extracted? {
        var done := if IsDirectoryMarker(archive[i]) then processed else processed + |archive[i].data|;
        ExtractEntriesConfined(s.fs, archive, i + 1, step, cancel, total, done, destination);
        ConfinedTrans(fs.files, s.fs.files, ExtractEntries(s.fs, archive, i + 1, step, cancel, total, done).fs.files, destination);
      }
    }
  }

  /** DecompressAsync writes nothing outside the destination prefix, on every exit path. */
  lemma DecompressConfined(fs: FileSystem, source: string, destination: string, overwrite: bool,
                           cancel: Cancellation, unpack: seq<byte> -> Option<seq<Entry>>)
    ensures Confined(fs.files, Decompress(fs, source, destination, overwrite, cancel, unpack).fs.files, destination)
  {
    var prepared := PrepareExtraction(fs, source, destination);
    if prepared.Success? && cancel != BeforeStart {
      var fs1 := prepared.value;
      var bytes := ReadFile(fs1, source);
      if bytes.Success? && unpack(bytes.value).Some? {
        var archive := unpack(bytes.value).value;
        forall f: FileSystem, e: Entry ensures Confined(f.files, Extractor(destination, overwrite)(f, e).fs.files, destination) {
          ExtractEntryConfined(f, destination, e, overwrite);
        }
        ExtractEntriesConfined(fs1, archive, 0, Extractor(destination, overwrite), cancel, LengthsFrom(archive, 0), 0, destination);
      }
    }
  }

  // ---------------------------------------------------------------------------
  // The guard stops the run
  // ---------------------------------------------------------------------------

  /** Whether the guard rejects an entry: its full target does not start with the
      destination string. The target depends only on the current directory. */
  predicate Escapes(cwd: CleanKey, destination: string, e: Entry) {
    !StartsWith(FullPath(cwd, Combine(destination, e.name)), destination)
  }

  /** What the loop needs to know of a step to stop at a rejected entry. */
  ghost predicate GuardedStep(step: (FileSystem, Entry) -> EntryStep, destination: string) {
    && (forall f: FileSystem, e: Entry :: step(f, e).fs.cwd == f.cwd)
    && (forall f: FileSystem, e: Entry :: Escapes(f.cwd, destination, e) ==> step(f, e).Stopped?)
    && (forall f: FileSystem, e: Entry :: step(f, e).Stopped? ==> step(f, e).error != Cancelled)
  }

  lemma ExtractorIsGuarded(destination: string, overwrite: bool)
    ensures GuardedStep(Extractor(destination, overwrite), destination)
  {
  }

  /** An entry that fails the guard ends the run: it never completes, and unless
      the token stopped it first it fails with an error other than cancellation. */
  lemma {:induction false} EscapingEntryStops(fs: FileSystem, archive: seq<Entry>, i: nat, step: (FileSystem, Entry) -> EntryStep,
                                              cancel: Cancellation, total: int, processed: nat, destination: string, j: nat)
    requires GuardedStep(step, destination)
    requires i <= j < |archive| && Escapes(fs.cwd, destination, archive[j])
    ensures ExtractEntries(fs, archive, i, step, cancel, total, processed).status != Completed
    ensures !CancelledAt(cancel, j) ==> ExtractEntries(fs, archive, i, step, cancel, total, processed).status != Failed(Cancelled)
    decreases |archive| - i
  {
    if !CancelledAt(cancel, i) {
      var s := step(fs, archive[i]);
      if i < j && s.Extracted? {
        var done := if IsDirectoryMarker(archive[i]) then processed else processed + |archive[i].data|;
        EscapingEntryStops(s.fs, archive, i + 1, step, cancel, total, done, destination, j);
      }
    }
  }

  /** Nothing after an entry the guard rejects is ever looked at: the run is the
      run over the archive cut just after that entry. */
  lemma EscapeEndsTheRun(fs: FileSystem, archive: seq<Entry>, i: nat, step: (FileSystem, Entry) -> EntryStep,
                         cancel: Cancellation, total: int, processed: nat, destination: string, j: nat)
    requires GuardedStep(step, destination)
    requires i <= j < |archive| && Escapes(fs.cwd, destination, archive[j])
    ensures ExtractEntries(fs, archive, i, step, cancel, total, processed)
            == ExtractEntries(fs, archive[..j + 1], i, step, cancel, total, processed)
  {
    StopEndsTheRun(fs, archive, i, step, cancel, total, processed, j);
  }

  /** A loop whose step keeps the current directory and stops at entry j in that
      directory never reads past entry j. */
  lemma {:induction false} StopEndsTheRun(fs: FileSystem, archive: seq<Entry>, i: nat, step: (FileSystem, Entry) -> EntryStep,
                                          cancel: Cancellation, total: int, processed: nat, j: nat)
    requires i <= j < |archive|
    requires forall f: FileSystem, e: Entry :: step(f, e).fs.cwd == f.cwd
    requires forall f: FileSystem :: f.cwd == fs.cwd ==> step(f, archive[j]).Stopped?
    ensures ExtractEntries(fs, archive, i, step, cancel, total, processed)
            == ExtractEntries(fs, archive[..j + 1], i, step, cancel, total, processed)
    decreases |archive| - i
  {
    var prefix := archive[..j + 1];
    assert prefix[i] == archive[i];
    if !CancelledAt(cancel, i) {
      var s := step(fs, archive[i]);
      if s.Extracted? {
        assert i < j;
        var done := if IsDirectoryMarker(archive[i]) then processed else processed + |archive[i].data|;
        StopEndsTheRun(s.fs, archive, i + 1, step, cancel, total, done, j);
      }
    }
  }

  /** DecompressAsync on a container holding an entry the guard rejects never
      completes, fails with an error other than cancellation unless the token
      was seen at or before that entry, and extracts no entry after it. */
  lemma DecompressRejectsEscape(fs: FileSystem, source: string, destination: string, overwrite: bool,
                                cancel: Cancellation, unpack: seq<byte> -> Option<seq<Entry>>, archive: seq<Entry>, j: nat)
    requires ReadFile(fs, source).Success? && unpack(ReadFile(fs, source).value) == Some(archive)
    requires j < |archive| && Escapes(fs.cwd, destination, archive[j])
    ensures Decompress(fs, source, destination, overwrite, cancel, unpack).status != Completed
    ensures cancel != BeforeStart && !CancelledAt(cancel, j) ==>
              Decompress(fs, source, destination, overwrite, cancel, unpack).status != Failed(Cancelled)
    ensures PrepareExtraction(fs, source, destination).Success? && cancel != BeforeStart ==>
              Decompress(fs, source, destination, overwrite, cancel, unpack)
              == ExtractEntries(PrepareExtraction(fs, source, destination).value, archive[..j + 1], 0,
                                Extractor(destination, overwrite), cancel, LengthsFrom(archive, 0), 0)
  {
    var prepared := PrepareExtraction(fs, source, destination);
    if prepared.Success? && cancel != BeforeStart {
      PreparedReadsAlike(fs, source, destination);
      ExtractSourceRejectsEscape(prepared.value, source, destination, overwrite, cancel, unpack, archive, j);
    }
  }

  /** Preparing the destination leaves a readable file readable, with the same bytes. */
  lemma PreparedReadsAlike(fs: FileSystem, source: string, destination: string)
    requires PrepareExtraction(fs, source, destination).Success? && ReadFile(fs, source).Success?
    ensures ReadFile(PrepareExtraction(fs, source, destination).value, source) == ReadFile(fs, source)
  {
    var k := KeyIn(fs, source);
    if !DirectoryExists(fs, destination) {
      var d := KeyIn(fs, destination);
      assert k in fs.files;
      assert k !in Prefixes(d);
    }
  }

  /** A source that names a file but ends in a separator is not a container:
      FileStream's open fails with ENOTDIR, before any entry is read. */
  lemma DecompressRejectsFileAsDirectory(fs: FileSystem, source: string, destination: string, overwrite: bool,
                                         cancel: Cancellation, unpack: seq<byte> -> Option<seq<Entry>>)
    requires KeyIn(fs, source) in fs.files && KeyIn(fs, source) !in fs.dirs && EndsWithSeparator(source)
    requires PrepareExtraction(fs, source, destination).Success? && cancel != BeforeStart
    ensures var run := Decompress(fs, source, destination, overwrite, cancel, unpack);
            run.status == Failed(NotADirectory) && run.fs.files == fs.files && run.reports == []
  {
    var k := KeyIn(fs, source);
    if !DirectoryExists(fs, destination) {
      assert k !in Prefixes(KeyIn(fs, destination));
    }
  }

  /** The worker task stops at an entry the guard rejects. */
  lemma ExtractSourceRejectsEscape(fs: FileSystem, source: string, destination: string, overwrite: bool,
                                   cancel: Cancellation, unpack: seq<byte> -> Option<seq<Entry>>, archive: seq<Entry>, j: nat)
    requires ReadFile(fs, source).Success? && unpack(ReadFile(fs, source).value) == Some(archive)
    requires j < |archive| && Escapes(fs.cwd, destination, archive[j])
    ensures ExtractSource(fs, source, destination, overwrite, cancel, unpack).status != Completed
    ensures !CancelledAt(cancel, j) ==> ExtractSource(fs, source, destination, overwrite, cancel, unpack).status != Failed(Cancelled)
    ensures ExtractSource(fs, source, destination, overwrite, cancel, unpack)
            == ExtractEntries(fs, archive[..j + 1], 0, Extractor(destination, overwrite), cancel, LengthsFrom(archive, 0), 0)
  {
    ExtractorIsGuarded(destination, overwrite);
    EscapingEntryStops(fs, archive, 0, Extractor(destination, overwrite), cancel, LengthsFrom(archive, 0), 0, destination, j);
    EscapeEndsTheRun(fs, archive, 0, Extractor(destination, overwrite), cancel, LengthsFrom(archive, 0), 0, destination, j);
  }

  lemma EscapeSegments()
    ensures Split("/out/../../escape.txt") == ["", "out", "..", "..", "escape.txt"]
  {
    assert Join(["", "out", "..", "..", "escape.txt"]) == "/out/../../escape.txt";
    SplitJoin(["", "out", "..", "..", "escape.txt"]);
  }

  lemma SiblingSegments()
    ensures Split("/out/../outside/x") == ["", "out", "..", "outside", "x"]
  {
    assert Join(["", "out", "..", "outside", "x"]) == "/out/../outside/x";
    SplitJoin(["", "out", "..", "outside", "x"]);
  }

  lemma EscapeResolves()
    ensures Resolve([], ["", "out", "..", "..", "escape.txt"]) == ["escape.txt"]
  {
    var e := "escape.txt";
    assert Separator !in e;
    assert Resolve([e], []) == [e];
    assert Resolve([], [e]) == [e];
    assert Resolve([], ["..", e]) == [e];
    assert Resolve(["out"], ["..", "..", e]) == [e];
    assert Resolve([], ["out", "..", "..", e]) == [e];
  }

  lemma SiblingResolves()
    ensures Resolve([], ["", "out", "..", "outside", "x"]) == ["outside", "x"]
    ensures Render(["outside", "x"]) == "/outside/x"
  {
    assert Separator !in "outside" && Separator !in "x";
    assert Resolve(["outside", "x"], []) == ["outside", "x"];
    assert Resolve(["outside"], ["x"]) == ["outside", "x"];
    assert Resolve([], ["outside", "x"]) == ["outside", "x"];
    assert Resolve(["out"], ["..", "outside", "x"]) == ["outside", "x"];
    assert Resolve([], ["out", "..", "outside", "x"]) == ["outside", "x"];
  }

  lemma EscapeKey(cwd: CleanKey)
    ensures KeyOf(cwd, "/out/../../escape.txt") == ["escape.txt"]
  {
    assert "/out/../../escape.txt"[0] == Separator;
    EscapeSegments();
    EscapeResolves();
  }

  lemma EscapeRendered()
    ensures Render(["escape.txt"]) == "/escape.txt"
  {
    assert Join(["escape.txt"]) == "escape.txt";
  }

  lemma EscapeTarget(cwd: CleanKey)
    ensures FullPath(cwd, "/out/../../escape.txt") == "/escape.txt"
  {
    EscapeKey(cwd);
    EscapeRendered();
    assert !EndsWithSeparator("/out/../../escape.txt");
  }

  lemma SiblingKey(cwd: CleanKey)
    ensures KeyOf(cwd, "/out/../outside/x") == ["outside", "x"]
  {
    assert "/out/../outside/x"[0] == Separator;
    SiblingSegments();
    SiblingResolves();
  }

  lemma SiblingTarget(cwd: CleanKey)
    ensures FullPath(cwd, "/out/../outside/x") == "/outside/x"
  {
    SiblingKey(cwd);
    SiblingResolves();
    assert !EndsWithSeparator("/out/../outside/x");
  }

  lemma EscapeCombined()
    ensures Combine("/out", "../../escape.txt") == "/out/../../escape.txt"
  {
    assert "/out" + [Separator] + "../../escape.txt" == "/out/../../escape.txt";
  }

  lemma SiblingCombined()
    ensures Combine("/out", "../outside/x") == "/out/../outside/x"
  {
    assert "/out" + [Separator] + "../outside/x" == "/out/../outside/x";
  }

  lemma PrefixChecks()
    ensures !StartsWith("/escape.txt", "/out")
    ensures StartsWith("/outside/x", "/out")
    ensures !(["out"] <= ["outside", "x"])
  {
    assert "/escape.txt"[1] != "/out"[1];
    assert "/outside/x"[..4] == "/out";
    assert ["outside", "x"][0] != "out";
  }

  /** An entry named "../../escape.txt" under the destination "/out" resolves to
      "/escape.txt", which the guard rejects. */
  lemma EscapeRejected(cwd: CleanKey, data: seq<byte>)
    ensures FullPath(cwd, Combine("/out", "../../escape.txt")) == "/escape.txt"
    ensures Escapes(cwd, "/out", Entry("../../escape.txt", data))
  {
    EscapeCombined();
    EscapeTarget(cwd);
    PrefixChecks();
  }

  /** The guard compares strings, not path segments: under the destination "/out"
      the entry "../outside/x" resolves to the sibling "/outside/x", which passes
      the guard although the directory "/out" is not one of its ancestors. */
  lemma SiblingPassesGuard(cwd: CleanKey, data: seq<byte>)
    ensures FullPath(cwd, Combine("/out", "../outside/x")) == Render(["outside", "x"])
    ensures !Escapes(cwd, "/out", Entry("../outside/x", data))
    ensures !(["out"] <= ["outside", "x"])
  {
    SiblingCombined();
    SiblingTarget(cwd);
    SiblingResolves();
    PrefixChecks();
  }

  /** The guard compares a full path, which is rooted, with the destination as
      given: every entry escapes a relative destination such as "out". */
  lemma RelativeDestinationEscapes(cwd: CleanKey, destination: string, e: Entry)
    requires destination != [] && destination[0] != Separator
    ensures Escapes(cwd, destination, e)
  {
    var target := FullPath(cwd, Combine(destination, e.name));
    assert target[0] == Separator;
  }

  /** So extracting a non-empty archive into a relative destination never
      completes: unless cancelled first, it stops at the first entry. */
  lemma RelativeDestinationNeverCompletes(fs: FileSystem, source: string, destination: string, overwrite: bool,
                                          cancel: Cancellation, unpack: seq<byte> -> Option<seq<Entry>>,
                                          archive: seq<Entry>)
    requires destination != [] && destination[0] != Separator
    requires ReadFile(fs, source).Success? && unpack(ReadFile(fs, source).value) == Some(archive)
    requires archive != []
    ensures Decompress(fs, source, destination, overwrite, cancel, unpack).status != Completed
    ensures cancel != BeforeStart && !CancelledAt(cancel, 0) ==>
              Decompress(fs, source, destination, overwrite, cancel, unpack).status != Failed(Cancelled)
  {
    RelativeDestinationEscapes(fs.cwd, destination, archive[0]);
    DecompressRejectsEscape(fs, source, destination, overwrite, cancel, unpack, archive, 0);
  }

  // ---------------------------------------------------------------------------
  // Progress accounting
  // ---------------------------------------------------------------------------

  /** The reports of a run lie between lo and hi, never decrease, and a
      completed run that reported anything ends at hi. */
  predicate Accounted(r: ExtractRun, total: int, lo: int, hi: int) {
    && ReportsWithin(r.reports, total, lo, hi)
    && NonDecreasing(r.reports)
    && (r.status == Completed && |r.reports| > 0 ==> r.reports[|r.reports| - 1].bytesProcessed == hi)
  }

  lemma ReportsCons(r: ProgressReport, rest: seq<ProgressReport>, total: int, lo: int, hi: int)
    requires r.totalBytes == total && lo <= r.bytesProcessed <= hi
    requires ReportsWithin(rest, total, r.bytesProcessed, hi) && NonDecreasing(rest)
    ensures ReportsWithin([r] + rest, total, lo, hi) && NonDecreasing([r] + rest)
  {
    var all := [r] + rest;
    forall j1, j2 | 0 <= j1 <= j2 < |all| ensures all[j1].bytesProcessed <= all[j2].bytesProcessed {
      if j1 > 0 {
        assert all[j1] == rest[j1 - 1] && all[j2] == rest[j2 - 1];
      } else if j2 > 0 {
        assert all[j2] == rest[j2 - 1];
      }
    }
    forall j | 0 <= j < |all| ensures all[j].totalBytes == total && lo <= all[j].bytesProcessed <= hi {
      if j > 0 {
        assert all[j] == rest[j - 1];
      }
    }
  }

  /** A tail without file entries holds no file bytes. */
  lemma {:induction false} NoFilesNoBytes(archive: seq<Entry>, i: nat)
    requires i <= |archive| && FilesFrom(archive, i) == 0
    ensures FileBytesFrom(archive, i) == 0
    decreases |archive| - i
  {
    if i < |archive| {
      NoFilesNoBytes(archive, i + 1);
    }
  }

  /** Prepending the report of a file entry keeps the accounting. */
  lemma AccountedCons(archive: seq<Entry>, i: nat, rest: ExtractRun, total: int, processed: nat)
    requires i < |archive| && !IsDirectoryMarker(archive[i])
    requires Accounted(rest, total, processed + |archive[i].data|, processed + FileBytesFrom(archive, i))
    requires rest.status == Completed ==> |rest.reports| == FilesFrom(archive, i + 1)
    ensures Accounted(ExtractRun(rest.fs, [ProgressReport(total, processed + |archive[i].data|)] + rest.reports, rest.status),
                      total, processed, processed + FileBytesFrom(archive, i))
  {
    var hi := processed + FileBytesFrom(archive, i);
    ReportsCons(ProgressReport(total, processed + |archive[i].data|), rest.reports, total, processed, hi);
    if rest.status == Completed && |rest.reports| == 0 {
      NoFilesNoBytes(archive, i + 1);
    }
  }

  /** Reports from entry i on carry the total, start above `processed`, never
      decrease, never pass `processed` plus the bytes of the remaining file
      entries, and reach that sum exactly when the loop completes. */
  lemma {:induction false} ExtractEntriesProgress(fs: FileSystem, archive: seq<Entry>, i: nat, step: (FileSystem, Entry) -> EntryStep,
                                                  cancel: Cancellation, total: int, processed: nat)
    requires i <= |archive|
    ensures Accounted(ExtractEntries(fs, archive, i, step, cancel, total, processed),
                      total, processed, processed + FileBytesFrom(archive, i))
    decreases |archive| - i
  {
    if i < |archive| && !CancelledAt(cancel, i) {
      var s := step(fs, archive[i]);
      if s.Extracted? && IsDirectoryMarker(archive[i]) {
        ExtractEntriesProgress(s.fs, archive, i + 1, step, cancel, total, processed);
        assert ExtractEntries(fs, archive, i, step, cancel, total, processed)
            == ExtractEntries(s.fs, archive, i + 1, step, cancel, total, processed);
        assert FileBytesFrom(archive, i) == FileBytesFrom(archive, i + 1);
      } else if s.Extracted? {
        var done := processed + |archive[i].data|;
        var rest := ExtractEntries(s.fs, archive, i + 1, step, cancel, total, done);
        ExtractEntriesProgress(s.fs, archive, i + 1, step, cancel, total, done);
        AccountedCons(archive, i, rest, total, processed);
        assert ExtractEntries(fs, archive, i, step, cancel, total, processed)
            == ExtractRun(rest.fs, [ProgressReport(total, done)] + rest.reports, rest.status);
      }
    }
  }

  /** When no directory marker carries bytes, the file entries hold every byte of the archive. */
  lemma {:induction false} FileBytesAreAllBytes(archive: seq<Entry>, i: nat)
    requires i <= |archive|
    requires forall j :: i <= j < |archive| && IsDirectoryMarker(archive[j]) ==> archive[j].data == []
    ensures FileBytesFrom(archive, i) == LengthsFrom(archive, i)
    decreases |archive| - i
  {
    if i < |archive| {
      FileBytesAreAllBytes(archive, i + 1);
    }
  }

  /** The reports of DecompressAsync, for a container that reads as `archive`:
      the total is the sum of all entry lengths, no report exceeds it, the counts
      never decrease, a completed run reports once per file entry, and its last
      report reaches the total when the directory markers carry no bytes. */
  lemma DecompressProgress(fs: FileSystem, source: string, destination: string, overwrite: bool,
                           cancel: Cancellation, unpack: seq<byte> -> Option<seq<Entry>>, archive: seq<Entry>)
    requires ReadFile(fs, source).Success? && unpack(ReadFile(fs, source).value) == Some(archive)
    ensures Accounted(Decompress(fs, source, destination, overwrite, cancel, unpack), LengthsFrom(archive, 0), 0, FileBytesFrom(archive, 0))
    ensures ReportsWithin(Decompress(fs, source, destination, overwrite, cancel, unpack).reports, LengthsFrom(archive, 0), 0, LengthsFrom(archive, 0))
    ensures var run := Decompress(fs, source, destination, overwrite, cancel, unpack);
            run.status == Completed ==> |run.reports| == FilesFrom(archive, 0)
  {
    var prepared := PrepareExtraction(fs, source, destination);
    if prepared.Success? && cancel != BeforeStart {
      var fs1 := prepared.value;
      assert ReadFile(fs1, source) == ReadFile(fs, source);
      ExtractEntriesProgress(fs1, archive, 0, Extractor(destination, overwrite), cancel, LengthsFrom(archive, 0), 0);
    }
  }

  /** When no directory marker carries bytes, a completed extraction that
      reported anything ends exactly at the total. */
  lemma DecompressReachesTotal(fs: FileSystem, source: string, destination: string, overwrite: bool,
                               cancel: Cancellation, unpack: seq<byte> -> Option<seq<Entry>>, archive: seq<Entry>)
    requires ReadFile(fs, source).Success? && unpack(ReadFile(fs, source).value) == Some(archive)
    requires forall j :: 0 <= j < |archive| && IsDirectoryMarker(archive[j]) ==> archive[j].data == []
    ensures ReportsWithin(Decompress(fs, source, destination, overwrite, cancel, unpack).reports, LengthsFrom(archive, 0), 0, LengthsFrom(archive, 0))
    ensures var run := Decompress(fs, source, destination, overwrite, cancel, unpack);
            run.status == Completed && |run.reports| > 0 ==> run.reports[|run.reports| - 1].bytesProcessed == LengthsFrom(archive, 0)
  {
    DecompressProgress(fs, source, destination, overwrite, cancel, unpack, archive);
    FileBytesAreAllBytes(archive, 0);
  }

  // ---------------------------------------------------------------------------
  // What a completed run leaves on disk
  // ---------------------------------------------------------------------------

  /** The file an entry is written to: the key of its full target. Like the
      target, it depends only on the current directory. */
  function TargetKey(cwd: CleanKey, destination: string, e: Entry): Key {
    KeyOf(cwd, FullPath(cwd, Combine(destination, e.name)))
  }

  /** The target key of every entry, for a fixed current directory. */
  function TargetOf(cwd: CleanKey, destination: string): Entry -> Key {
    e => TargetKey(cwd, destination, e)
  }

  /** What the loop needs to know of a step to say where the bytes end up: it
      keeps the current directory, and in directory cwd an extracted marker
      writes no file while any other entry puts its bytes at its target. */
  ghost predicate WritingStep(step: (FileSystem, Entry) -> EntryStep, cwd: CleanKey, target: Entry -> Key) {
    && (forall f: FileSystem, e: Entry :: step(f, e).fs.cwd == f.cwd)
    && (forall f: FileSystem, e: Entry :: f.cwd == cwd && step(f, e).Extracted? ==>
          step(f, e).fs.files == if IsDirectoryMarker(e) then f.files else f.files[target(e) := e.data])
  }

  lemma ExtractorIsWriting(cwd: CleanKey, destination: string, overwrite: bool)
    ensures WritingStep(Extractor(destination, overwrite), cwd, TargetOf(cwd, destination))
  {
  }

  /** Whether no file entry of archive[from..] is written to key k. */
  predicate Untargeted(target: Entry -> Key, archive: seq<Entry>, from: nat, k: Key) {
    forall j :: from <= j < |archive| && !IsDirectoryMarker(archive[j]) ==> target(archive[j]) != k
  }

  /** A completed run leaves a file that no remaining file entry targets as it was. */
  lemma {:induction false} CompletedRunKeeps(fs: FileSystem, archive: seq<Entry>, i: nat, step: (FileSystem, Entry) -> EntryStep,
                                             cancel: Cancellation, total: int, processed: nat, target: Entry -> Key, k: Key)
    requires i <= |archive| && WritingStep(step, fs.cwd, target)
    requires ExtractEntries(fs, archive, i, step, cancel, total, processed).status == Completed
    requires Untargeted(target, archive, i, k) && k in fs.files
    ensures var after := ExtractEntries(fs, archive, i, step, cancel, total, processed).fs.files;
            k in after && after[k] == fs.files[k]
    decreases |archive| - i
  {
    if i < |archive| {
      var s := step(fs, archive[i]);
      assert s.Extracted?;
      var done := if IsDirectoryMarker(archive[i]) then processed else processed + |archive[i].data|;
      CompletedRunKeeps(s.fs, archive, i + 1, step, cancel, total, done, target, k);
    }
  }

  /** A completed run leaves the bytes of file entry j at its target when no
      later file entry is written to the same key. */
  lemma {:induction false} CompletedRunWrites(fs: FileSystem, archive: seq<Entry>, i: nat, step: (FileSystem, Entry) -> EntryStep,
                                              cancel: Cancellation, total: int, processed: nat, target: Entry -> Key, j: nat)
    requires i <= j < |archive| && WritingStep(step, fs.cwd, target)
    requires ExtractEntries(fs, archive, i, step, cancel, total, processed).status == Completed
    requires !IsDirectoryMarker(archive[j]) && Untargeted(target, archive, j + 1, target(archive[j]))
    ensures var after := ExtractEntries(fs, archive, i, step, cancel, total, processed).fs.files;
            target(archive[j]) in after && after[target(archive[j])] == archive[j].data
    decreases |archive| - i
  {
    var s := step(fs, archive[i]);
    assert s.Extracted?;
    var done := if IsDirectoryMarker(archive[i]) then processed else processed + |archive[i].data|;
    if i < j {
      CompletedRunWrites(s.fs, archive, i + 1, step, cancel, total, done, target, j);
    } else {
      CompletedRunKeeps(s.fs, archive, i + 1, step, cancel, total, done, target, target(archive[j]));
    }
  }

  /** A completed DecompressAsync leaves every file entry's bytes at its target,
      unless a later file entry is written to the same file. */
  lemma DecompressWritesEntries(fs: FileSystem, source: string, destination: string, overwrite: bool,
                                cancel: Cancellation, unpack: seq<byte> -> Option<seq<Entry>>, archive: seq<Entry>, j: nat)
    requires ReadFile(fs, source).Success? && unpack(ReadFile(fs, source).value) == Some(archive)
    requires Decompress(fs, source, destination, overwrite, cancel, unpack).status == Completed
    requires j < |archive| && !IsDirectoryMarker(archive[j])
    requires Untargeted(TargetOf(fs.cwd, destination), archive, j + 1, TargetKey(fs.cwd, destination, archive[j]))
    ensures var after := Decompress(fs, source, destination, overwrite, cancel, unpack).fs.files;
            var k := TargetKey(fs.cwd, destination, archive[j]);
            k in after && after[k] == archive[j].data
  {
    var fs1 := PrepareExtraction(fs, source, destination).value;
    PreparedReadsAlike(fs, source, destination);
    ExtractorIsWriting(fs.cwd, destination, overwrite);
    CompletedRunWrites(fs1, archive, 0, Extractor(destination, overwrite), cancel, LengthsFrom(archive, 0), 0, TargetOf(fs.cwd, destination), j);
  }

  /** A completed DecompressAsync leaves every file that no file entry is
      written to as it was. */
  lemma DecompressKeepsOthers(fs: FileSystem, source: string, destination: string, overwrite: bool,
                              cancel: Cancellation, unpack: seq<byte> -> Option<seq<Entry>>, archive: seq<Entry>, k: Key)
    requires ReadFile(fs, source).Success? && unpack(ReadFile(fs, source).value) == Some(archive)
    requires Decompress(fs, source, destination, overwrite, cancel, unpack).status == Completed
    requires k in fs.files && Untargeted(TargetOf(fs.cwd, destination), archive, 0, k)
    ensures var after := Decompress(fs, source, destination, overwrite, cancel, unpack).fs.files;
            k in after && after[k] == fs.files[k]
  {
    var fs1 := PrepareExtraction(fs, source, destination).value;
    PreparedReadsAlike(fs, source, destination);
    ExtractorIsWriting(fs.cwd, destination, overwrite);
    CompletedRunKeeps(fs1, archive, 0, Extractor(destination, overwrite), cancel, LengthsFrom(archive, 0), 0, TargetOf(fs.cwd, destination), k);
  }
}

=== FILE: file_compression.dfy ===
/** FileCompression: archiving a file or a directory tree into a zip container
    with per-entry progress reports and cooperative cancellation, and extracting
    a container into a destination directory behind a path-prefix guard.

    The container format and the deflate codec are foreign code: an archive is
    the sequence of its entries, and the caller supplies the functions that
    turn entries into the container's bytes and back. */
module FileCompression {
  import opened Results
  import opened Paths
  import opened FileSystems
  import opened DirectorySizes

  /** CustomCompessionLevel: its three named members, or any other value of the enum. */
  datatype CustomLevel = Fastest | Optimal | NoCompression | OtherLevel(code: int)

  /** System.IO.Compression.CompressionLevel, an opaque tag for the codec. */
  datatype CodecLevel = CodecFastest | CodecOptimal | CodecNoCompression

  /** One entry of a container: its FullName and its uncompressed bytes. */
  datatype Entry = Entry(name: string, data: seq<byte>)

  datatype ProgressReport = ProgressReport(totalBytes: int, bytesProcessed: int)

  /** Every report carries the total, and a byte count between lo and hi. */
  predicate ReportsWithin(reports: seq<ProgressReport>, total: int, lo: int, hi: int) {
    forall j :: 0 <= j < |reports| ==> reports[j].totalBytes == total && lo <= reports[j].bytesProcessed <= hi
  }

  /** The byte counts never decrease from one report to a later one. */
  predicate NonDecreasing(reports: seq<ProgressReport>) {
    forall j1, j2 :: 0 <= j1 <= j2 < |reports| ==> reports[j1].bytesProcessed <= reports[j2].bytesProcessed
  }

  /** When the cancellation token is seen signalled: never, before the worker task
      starts (Task.Run then never runs it), or at the check before entry `index`
      and every later one. */
  datatype Cancellation = NotRequested | BeforeStart | BeforeEntry(index: nat)

  predicate CancelledAt(cancel: Cancellation, i: nat) {
    cancel.BeforeEntry? && cancel.index <= i
  }

  /** What an archiving run left behind: the file system, the entries it put in
      the container, the reports it handed to the progress sink, how it ended. */
  datatype CompressRun = CompressRun(fs: FileSystem, entries: seq<Entry>, reports: seq<ProgressReport>, status: Status)

  /** The entries and reports of the worker's body, before the container is closed. */
  datatype Archived = Archived(entries: seq<Entry>, reports: seq<ProgressReport>, status: Status)

  /** What an extraction run left behind. */
  datatype ExtractRun = ExtractRun(fs: FileSystem, reports: seq<ProgressReport>, status: Status)

  // ---------------------------------------------------------------------------
  // Destination rules and the level map
  // ---------------------------------------------------------------------------

  /** The destination used when none is given: next to the source, named after it. */
  function DefaultDestination(source: string): (d: string)
    ensures EndsWith(d, GetFileNameWithoutExtension(source) + ".zip")
    ensures GetDirectoryName(source).Some? ==> GetDirectoryName(source).value <= d
    ensures var dir := GetDirectoryName(source).GetOr("");
            var name := GetFileNameWithoutExtension(source) + ".zip";
            && (dir == "" ==> d == name)
            && (dir != "" && !EndsWithSeparator(dir) ==> d == dir + [Separator] + name)
            && (EndsWithSeparator(dir) ==> d == dir + name)
  {
    var stem := GetFileNameWithoutExtension(source);
    var name := stem + ".zip";
    assert name[0] != Separator by {
      if stem != "" {
        assert name[0] == stem[0];
      }
    }
    Combine(GetDirectoryName(source).GetOr(""), name)
  }

  /** A destination keeps a ".zip" ending in any letter case; otherwise the
      extension of its last segment (from its last '.') is replaced by ".zip". */
  function ForceZipExtension(d: string): (r: string)
    ensures d != "" ==> EndsWithIgnoreCase(r, ".zip")
    ensures EndsWithIgnoreCase(d, ".zip") ==> r == d
    ensures d != "" ==> |r| >= 4 && r[..|r| - 4] <= d
    ensures d != "" && |r| - 4 < |d| ==> d[|r| - 4] == '.'
    ensures d != "" ==> forall j :: |r| - 4 <= j < |d| ==> d[j] != Separator
    ensures d != "" && !EndsWithIgnoreCase(d, ".zip") ==> r == d[..ExtensionStart(d)] + ".zip"
  {
    if EndsWithIgnoreCase(d, ".zip") then
      assert ToLowerAscii(d[|d| - 4]) == '.';
      d
    else if d == "" then ""
    else
      ChangeToZip(d);
      ChangeExtension(d, ".zip")
  }

  /** ChangeExtension(d, ".zip") keeps d up to the extension of its last
      segment and ends in ".zip". */
  lemma ChangeToZip(d: string)
    requires d != ""
    ensures var r := ChangeExtension(d, ".zip");
            && |r| == ExtensionStart(d) + 4
            && EndsWithIgnoreCase(r, ".zip")
            && r[..|r| - 4] == d[..ExtensionStart(d)]
  {
    var r := ChangeExtension(d, ".zip");
    assert r[..|r| - 4] == d[..ExtensionStart(d)];
    assert r[|r| - 4..] == ".zip";
    EndsWithIgnoringCase(r, ".zip");
  }

  /** The archive path CompressAsync settles on before touching the file system. */
  function ResolveDestination(source: string, destination: string): (d: string)
    ensures EndsWithIgnoreCase(d, ".zip")
    ensures !IsBlank(destination) && EndsWithIgnoreCase(destination, ".zip") ==> d == destination
    ensures IsBlank(destination) ==> d == DefaultDestination(source)
    ensures !IsBlank(destination) ==> d == ForceZipExtension(destination)
  {
    if IsBlank(destination) then
      DefaultIsZip(source);
      ForceZipExtension(DefaultDestination(source))
    else
      assert destination != "";
      ForceZipExtension(destination)
  }

  /** The default destination already ends in ".zip". */
  lemma DefaultIsZip(source: string)
    ensures EndsWithIgnoreCase(DefaultDestination(source), ".zip")
  {
    var chosen := DefaultDestination(source);
    var name := GetFileNameWithoutExtension(source) + ".zip";
    assert EndsWith(name, ".zip") by {
      assert name[|name| - 4..] == ".zip";
    }
    EndsWithTrans(chosen, name, ".zip");
    EndsWithIgnoringCase(chosen, ".zip");
  }

  /** The mapping from the library's level to the codec's: total, with every
      value other than the three named ones falling back to Optimal. */
  function MapLevel(level: CustomLevel): (c: CodecLevel)
    ensures c == CodecFastest <==> level == Fastest
    ensures c == CodecNoCompression <==> level == NoCompression
    ensures c == CodecOptimal <==> level != Fastest && level != NoCompression
  {
    match level
    case Fastest => CodecFastest
    case Optimal => CodecOptimal
    case NoCompression => CodecNoCompression
    case OtherLevel(_) => CodecOptimal
  }

  // ---------------------------------------------------------------------------
  // Compression
  // ---------------------------------------------------------------------------

  /** The directory loop: one entry per enumerated file, named by its path
      relative to the root, with one report after each file; the token is
      checked before each entry. A path that is not a file fails after its
      entry has been created, so the container keeps that entry empty. */
  function ArchiveFiles(fs: FileSystem, root: Key, walk: seq<Key>, i: nat, cancel: Cancellation, total: int, processed: nat): (r: Archived)
    requires i <= |walk|
    ensures |r.reports| <= |r.entries| <= |walk| - i
    ensures |r.entries| <= |r.reports| + 1
    ensures r.status == Completed <==> |r.reports| == |walk| - i
    decreases |walk| - i
  {
    if i == |walk| then Archived([], [], Completed)
    else if CancelledAt(cancel, i) then Archived([], [], Failed(Cancelled))
    else
      var k := walk[i];
      if k !in fs.files then
        Archived([Entry(RelativePath(root, k), [])], [], Failed(if k in fs.dirs then UnauthorizedAccess else MissingError(fs, k)))
      else
        var done := processed + |fs.files[k]|;
        var rest := ArchiveFiles(fs, root, walk, i + 1, cancel, total, done);
        Archived([Entry(RelativePath(root, k), fs.files[k])] + rest.entries,
                 [ProgressReport(total, done)] + rest.reports,
                 rest.status)
  }

  /** GetFileSize: the length of an existing file. */
  function GetFileSize(fs: FileSystem, path: string): (r: Result<nat>)
    ensures IsBlank(path) ==> r == Failure(ArgumentError("filePath"))
    ensures !IsBlank(path) ==> (r.Success? <==> FileExists(fs, path))
    ensures !IsBlank(path) && r.Failure? ==> r.error == FileNotFound
    ensures r.Success? ==> r.value == |fs.files[KeyIn(fs, path)]|
  {
    if IsBlank(path) then Failure(ArgumentError("filePath"))
    else if !FileExists(fs, path) then Failure(FileNotFound)
    else Success(Length(fs, KeyIn(fs, path)))
  }

  /** The worker's body once the container is open: File.GetAttributes fails for
      a missing source; a directory is archived file by file against its
      GetDirectorySize; a single file becomes one entry named by FileInfo.Name,
      the file name of the path as given, reported against its GetFileSize. */
  ghost function ArchiveSource(fs: FileSystem, source: string, cancel: Cancellation, walk: seq<Key>): (r: Archived)
    ensures !PathExists(fs, source) ==> r == Archived([], [], Failed(MissingError(fs, KeyIn(fs, source))))
    ensures PathExists(fs, source) && KeyIn(fs, source) in fs.dirs ==>
              && |r.reports| <= |r.entries| <= |walk|
              && (r.status == Completed <==> |r.reports| == |walk|)
    ensures !IsBlank(source) && PathExists(fs, source) && KeyIn(fs, source) !in fs.dirs && !FileExists(fs, source) ==>
              r == Archived([], [], Failed(FileNotFound))
    ensures !IsBlank(source) && PathExists(fs, source) && KeyIn(fs, source) !in fs.dirs && FileExists(fs, source) ==>
              var data := fs.files[KeyIn(fs, source)];
              r == Archived([Entry(GetFileName(source), data)], [ProgressReport(|data|, |data|)], Completed)
  {
    if !PathExists(fs, source) then Archived([], [], Failed(MissingError(fs, KeyIn(fs, source))))
    else if KeyIn(fs, source) in fs.dirs then
      var root := KeyIn(fs, source);
      var total := GetDirectorySize(fs, root).value;
      ArchiveFiles(fs, root, walk, 0, cancel, total, 0)
    else
      match GetFileSize(fs, source)
      case Failure(err) => Archived([], [], Failed(err))
      case Success(total) =>
        var data := fs.files[KeyIn(fs, source)];
        Archived([Entry(GetFileName(source), data)], [ProgressReport(total, |data|)], Completed)
  }

  /** Everything CompressAsync does before its worker task: the source check, the
      destination rules, the overwrite guard and the destination's directory. */
  function Prepare(fs: FileSystem, source: string, destination: string, overwrite: bool): (r: Result<FileSystem>)
    ensures IsBlank(source) ==> r == Failure(ArgumentError("sourcePath"))
    ensures !IsBlank(source) && !overwrite && FileExists(fs, ResolveDestination(source, destination)) ==>
              r == Failure(AlreadyExists)
    ensures r.Success? ==> r.value.files == fs.files && r.value.cwd == fs.cwd && fs.dirs <= r.value.dirs
    ensures r.Success? ==> !IsBlank(source) && (overwrite || !FileExists(fs, ResolveDestination(source, destination)))
    ensures r.Success? ==>
              var destDir := GetDirectoryName(ResolveDestination(source, destination));
              || r.value.dirs == fs.dirs
              || (destDir.Some? && r.value.dirs == fs.dirs + Prefixes(KeyIn(fs, destDir.value)))
  {
    if IsBlank(source) then Failure(ArgumentError("sourcePath"))
    else
      var dest := ResolveDestination(source, destination);
      if !overwrite && FileExists(fs, dest) then Failure(AlreadyExists)
      else
        var destDir := GetDirectoryName(dest);
        if destDir.Some? && !IsBlank(destDir.value) && !DirectoryExists(fs, destDir.value)
        then CreateDirectory(fs, destDir.value)
        else Success(fs)
  }

  /** Preparing the destination keeps the tree well formed. */
  lemma PrepareWellFormed(fs: FileSystem, source: string, destination: string, overwrite: bool)
    requires WellFormed(fs)
    ensures Prepare(fs, source, destination, overwrite).Success? ==> WellFormed(Prepare(fs, source, destination, overwrite).value)
  {
    var r := Prepare(fs, source, destination, overwrite);
    if r.Success? && r.value.dirs != fs.dirs {
      var destDir := GetDirectoryName(ResolveDestination(source, destination));
      CreateDirectoryAtWellFormed(fs, KeyIn(fs, destDir.value));
    }
  }

  /** The worker task on the state in which the empty container has just been
      created: the source is archived, and disposing the archive writes the
      entries created so far into the container, on every exit path. */
  ghost function Worker(fs: FileSystem, source: string, dest: string, codec: CodecLevel, cancel: Cancellation,
                        walk: seq<Key>, pack: (seq<Entry>, CodecLevel) -> seq<byte>): (run: CompressRun)
    ensures run.fs == fs.(files := fs.files[KeyIn(fs, dest) := pack(run.entries, codec)])
    ensures run.fs.cwd == fs.cwd && run.fs.dirs == fs.dirs
    ensures run.fs.files.Keys == fs.files.Keys + {KeyIn(fs, dest)}
    ensures forall k :: k in fs.files && k != KeyIn(fs, dest) ==> run.fs.files[k] == fs.files[k]
    ensures |run.reports| <= |run.entries|
    ensures run.status == Completed ==> |run.reports| == |run.entries|
  {
    var body := ArchiveSource(fs, source, cancel, walk);
    CompressRun(fs.(files := fs.files[KeyIn(fs, dest) := pack(body.entries, codec)]), body.entries, body.reports, body.status)
  }

  /** Task.Run: a token signalled before the start means the worker never
      runs; otherwise it creates the empty container and archives the source. */
  ghost function StartWorker(fs: FileSystem, source: string, dest: string, codec: CodecLevel, cancel: Cancellation,
                             walk: seq<Key>, pack: (seq<Entry>, CodecLevel) -> seq<byte>): (run: CompressRun)
    ensures cancel == BeforeStart ==> run == CompressRun(fs, [], [], Failed(Cancelled))
    ensures run.fs.files.Keys <= fs.files.Keys + {KeyIn(fs, dest)}
    ensures forall k :: k in fs.files && k != KeyIn(fs, dest) ==> k in run.fs.files && run.fs.files[k] == fs.files[k]
    ensures run.status == Completed ==> |run.entries| == |run.reports|
    ensures run.status == Completed ==> KeyIn(fs, dest) in run.fs.files && run.fs.files[KeyIn(fs, dest)] == pack(run.entries, codec)
  {
    if cancel == BeforeStart then CompressRun(fs, [], [], Failed(Cancelled))
    else
      match WriteFile(fs, dest, [])
      case Failure(err) => CompressRun(fs, [], [], Failed(err))
      case Success(fs2) => Worker(fs2, source, dest, codec, cancel, walk, pack)
  }

  /** CompressAsync. `walk` is the order in which the operating system enumerates
      the files below a source directory; `pack` is the container writer. */
  ghost function Compress(fs: FileSystem, source: string, destination: string, level: CustomLevel,
                          overwrite: bool, cancel: Cancellation, walk: seq<Key>,
                          pack: (seq<Entry>, CodecLevel) -> seq<byte>): (run: CompressRun)
    ensures IsBlank(source) ==> run == CompressRun(fs, [], [], Failed(ArgumentError("sourcePath")))
    ensures !IsBlank(source) && !overwrite && FileExists(fs, ResolveDestination(source, destination)) ==>
              run == CompressRun(fs, [], [], Failed(AlreadyExists))
    ensures cancel == BeforeStart ==> run.fs.files == fs.files && run.entries == [] && run.reports == []
    ensures run.fs.files.Keys <= fs.files.Keys + {KeyIn(fs, ResolveDestination(source, destination))}
    ensures forall k :: k in fs.files && k != KeyIn(fs, ResolveDestination(source, destination)) ==>
              k in run.fs.files && run.fs.files[k] == fs.files[k]
    ensures run.status == Completed ==> |run.entries| == |run.reports|
    ensures run.status == Completed ==>
              && KeyIn(fs, ResolveDestination(source, destination)) in run.fs.files
              && run.fs.files[KeyIn(fs, ResolveDestination(source, destination))] == pack(run.entries, MapLevel(level))
  {
    match Prepare(fs, source, destination, overwrite)
    case Failure(err) => CompressRun(fs, [], [], Failed(err))
    case Success(fs1) => StartWorker(fs1, source, ResolveDestination(source, destination), MapLevel(level), cancel, walk, pack)
  }

  // ---------------------------------------------------------------------------
  // Decompression
  // ---------------------------------------------------------------------------

  /** An entry whose name ends in a separator ('/' is both the separator and the
      alternative separator on Unix) only stands for a directory. */
  predicate IsDirectoryMarker(e: Entry) {
    EndsWithSeparator(e.name)
  }

  /** The directory markers are exactly the entries with a name but no file name. */
  lemma DirectoryMarkerHasNoFileName(e: Entry)
    ensures IsDirectoryMarker(e) <==> e.name != "" && GetFileName(e.name) == ""
  {
  }

  /** The sum of entry.Length over archive[i..], the total DecompressAsync reports
      against: zero exactly when every remaining entry is empty. */
  function LengthsFrom(archive: seq<Entry>, i: nat): (n: nat)
    requires i <= |archive|
    ensures n == 0 <==> forall j :: i <= j < |archive| ==> archive[j].data == []
    ensures i < |archive| ==> |archive[i].data| <= n
    decreases |archive| - i
  {
    if i == |archive| then 0 else |archive[i].data| + LengthsFrom(archive, i + 1)
  }

  /** The bytes of the file entries (not directory markers) of archive[i..]. */
  function FileBytesFrom(archive: seq<Entry>, i: nat): (n: nat)
    requires i <= |archive|
    ensures n <= LengthsFrom(archive, i)
    decreases |archive| - i
  {
    if i == |archive| then 0
    else (if IsDirectoryMarker(archive[i]) then 0 else |archive[i].data|) + FileBytesFrom(archive, i + 1)
  }

  /** The number of file entries (not directory markers) of archive[i..]. */
  function FilesFrom(archive: seq<Entry>, i: nat): (n: nat)
    requires i <= |archive|
    ensures n <= |archive| - i
    decreases |archive| - i
  {
    if i == |archive| then 0
    else (if IsDirectoryMarker(archive[i]) then 0 else 1) + FilesFrom(archive, i + 1)
  }

  /** The full path an entry is extracted to: rooted, and the rendering of the
      key the combined path resolves to, keeping a trailing separator. */
  function EntryTarget(fs: FileSystem, destination: string, e: Entry): (t: string)
    ensures |t| > 0 && t[0] == Separator
    ensures var k := KeyOf(fs.cwd, Combine(destination, e.name));
            t == Render(k) || t == Render(k) + [Separator]
  {
    FullPath(fs.cwd, Combine(destination, e.name))
  }

  /** What extracting one entry left behind. */
  datatype EntryStep = Extracted(fs: FileSystem) | Stopped(fs: FileSystem, error: Error)

  /** One pass of the extraction loop after the cancellation check: the prefix
      guard, then a directory for a marker, or the parent directory, the
      overwrite guard and the file for anything else. */
  function ExtractEntry(fs: FileSystem, destination: string, e: Entry, overwrite: bool): (s: EntryStep)
    ensures s.fs.cwd == fs.cwd
    ensures !StartsWith(EntryTarget(fs, destination, e), destination) ==> s == Stopped(fs, OutsideTarget)
    ensures s.Extracted? ==> StartsWith(EntryTarget(fs, destination, e), destination)
    ensures s.Extracted? && IsDirectoryMarker(e) ==> s.fs.files == fs.files
    ensures s.Extracted? && !IsDirectoryMarker(e) ==>
              && (overwrite || !FileExists(fs, EntryTarget(fs, destination, e)))
              && !EndsWithSeparator(EntryTarget(fs, destination, e))
              && s.fs.files == fs.files[KeyIn(fs, EntryTarget(fs, destination, e)) := e.data]
    ensures s.Stopped? ==> s.fs.files == fs.files && s.error != Cancelled
  {
    var target := EntryTarget(fs, destination, e);
    if !StartsWith(target, destination) then Stopped(fs, OutsideTarget)
    else if IsDirectoryMarker(e) then
      match CreateDirectory(fs, target)
      case Failure(err) => Stopped(fs, err)
      case Success(fs1) => Extracted(fs1)
    else ExtractFile(fs, target, e.data, overwrite)
  }

  /** Extracting a file entry to its full path: the parent directory, the
      overwrite guard, then the file itself. */
  function ExtractFile(fs: FileSystem, target: string, data: seq<byte>, overwrite: bool): (s: EntryStep)
    ensures s.fs.cwd == fs.cwd
    ensures s.Extracted? ==>
              && (overwrite || !FileExists(fs, target))
              && !EndsWithSeparator(target)
              && s.fs.files == fs.files[KeyIn(fs, target) := data]
    ensures s.Stopped? ==> s.fs.files == fs.files && s.error != Cancelled
  {
    var parent := GetDirectoryName(target);
    if parent.None? then Stopped(fs, ArgumentError("path"))
    else
      match CreateDirectory(fs, parent.value)
      case Failure(err) => Stopped(fs, err)
      case Success(fs1) =>
        if FileExists(fs1, target) && !overwrite then Stopped(fs1, AlreadyExists)
        else
          match WriteFile(fs1, target, data)
          case Failure(err) => Stopped(fs1, err)
          case Success(fs2) => Extracted(fs2)
  }

  /** The step DecompressAsync runs for each entry. */
  function Extractor(destination: string, overwrite: bool): (FileSystem, Entry) -> EntryStep {
    (f, e) => ExtractEntry(f, destination, e, overwrite)
  }

  /** The extraction loop from entry i on, with `step` extracting one entry: the
      token is checked before each entry, and each file entry (not a directory
      marker) that was extracted is followed by one report. */
  function ExtractEntries(fs: FileSystem, archive: seq<Entry>, i: nat, step: (FileSystem, Entry) -> EntryStep,
                          cancel: Cancellation, total: int, processed: nat): (r: ExtractRun)
    requires i <= |archive|
    ensures |r.reports| <= FilesFrom(archive, i)
    ensures r.status == Completed ==> |r.reports| == FilesFrom(archive, i)
    decreases |archive| - i
  {
    if i == |archive| then ExtractRun(fs, [], Completed)
    else if CancelledAt(cancel, i) then ExtractRun(fs, [], Failed(Cancelled))
    else
      var s := step(fs, archive[i]);
      if s.Stopped? then ExtractRun(s.fs, [], Failed(s.error))
      else if IsDirectoryMarker(archive[i]) then ExtractEntries(s.fs, archive, i + 1, step, cancel, total, processed)
      else
        var done := processed + |archive[i].data|;
        var rest := ExtractEntries(s.fs, archive, i + 1, step, cancel, total, done);
        ExtractRun(rest.fs, [ProgressReport(total, done)] + rest.reports, rest.status)
  }

  /** Everything DecompressAsync does before its worker task: the argument
      checks and the destination directory. */
  function PrepareExtraction(fs: FileSystem, source: string, destination: string): (r: Result<FileSystem>)
    ensures IsBlank(source) ==> r == Failure(ArgumentError("sourcePath"))
    ensures !IsBlank(source) && IsBlank(destination) ==> r == Failure(ArgumentError("destinationPath"))
    ensures r.Success? ==> r.value.files == fs.files && r.value.cwd == fs.cwd && DirectoryExists(r.value, destination)
  {
    if IsBlank(source) then Failure(ArgumentError("sourcePath"))
    else if IsBlank(destination) then Failure(ArgumentError("destinationPath"))
    else if !DirectoryExists(fs, destination) then CreateDirectory(fs, destination)
    else Success(fs)
  }

  /** The worker task: the container is read and its entries extracted against
      the sum of their lengths. */
  function ExtractSource(fs: FileSystem, source: string, destination: string, overwrite: bool,
                         cancel: Cancellation, unpack: seq<byte> -> Option<seq<Entry>>): (run: ExtractRun)
    ensures ReadFile(fs, source).Failure? ==> run == ExtractRun(fs, [], Failed(ReadFile(fs, source).error))
    ensures ReadFile(fs, source).Success? && unpack(ReadFile(fs, source).value).None? ==> run == ExtractRun(fs, [], Failed(InvalidData))
    ensures KeyIn(fs, source) in fs.files && KeyIn(fs, source) !in fs.dirs && EndsWithSeparator(source) ==>
              run == ExtractRun(fs, [], Failed(NotADirectory))
  {
    match ReadFile(fs, source)
    case Failure(err) => ExtractRun(fs, [], Failed(err))
    case Success(bytes) =>
      match unpack(bytes)
      case None => ExtractRun(fs, [], Failed(InvalidData))
      case Some(archive) =>
        ExtractEntries(fs, archive, 0, Extractor(destination, overwrite), cancel, LengthsFrom(archive, 0), 0)
  }

  /** DecompressAsync. `unpack` is the container reader; it yields None for bytes
      that are not a readable container. */
  function Decompress(fs: FileSystem, source: string, destination: string, overwrite: bool,
                      cancel: Cancellation, unpack: seq<byte> -> Option<seq<Entry>>): (run: ExtractRun)
    ensures IsBlank(source) ==> run == ExtractRun(fs, [], Failed(ArgumentError("sourcePath")))
    ensures !IsBlank(source) && IsBlank(destination) ==> run == ExtractRun(fs, [], Failed(ArgumentError("destinationPath")))
    ensures cancel == BeforeStart ==> run.fs.files == fs.files && run.reports == [] && run.status.Failed?
  {
    match PrepareExtraction(fs, source, destination)
    case Failure(err) => ExtractRun(fs, [], Failed(err))
    case Success(fs1) =>
      if cancel == BeforeStart then ExtractRun(fs1, [], Failed(Cancelled))
      else ExtractSource(fs1, source, destination, overwrite, cancel, unpack)
  }
}

=== FILE: file_manager.dfy ===
/** FileManager: copying, moving, creating and securely deleting single files.

    CopyFileAsync as written hands Directory.CreateDirectory whatever
    Path.GetDirectoryName returns for the destination, which is the empty string
    for a bare file name; CopyFileAsWritten and MoveFileAsWritten model that,
    and CopyFile and MoveFile the guarded call CompressAsync makes. */
module FileManager {
  import opened Results
  import opened Paths
  import opened FileSystems

  /** The length of the buffer the overwrite pass fills with random bytes. */
  const ChunkSize: nat := 4096

  /** What an operation left behind and how it ended; a failure can follow an
      effect, such as a directory created before a write failed. */
  datatype Effect = Effect(fs: FileSystem, status: Status)

  // ---------------------------------------------------------------------------
  // Secure delete
  // ---------------------------------------------------------------------------

  /** The sum of a sequence of chunk lengths. */
  function Sum(xs: seq<nat>): nat {
    if xs == [] then 0 else Sum(xs[..|xs| - 1]) + xs[|xs| - 1]
  }

  /** Chunk lengths that cover `size` bytes: each in (0, ChunkSize], all but the
      last one full. */
  predicate Chunked(chunks: seq<nat>, size: nat) {
    && (forall j :: 0 <= j < |chunks| ==> 0 < chunks[j] <= ChunkSize)
    && (forall j :: 0 <= j < |chunks| - 1 ==> chunks[j] == ChunkSize)
    && Sum(chunks) == size
  }

  /** The overwrite loop of SecureDeleteFileAsync for a file of `size` bytes.
      Pass p refills the buffer with noise(p, 0), ..., noise(p, ChunkSize - 1)
      and writes as much of it as the file still needs. */
  method OverwritePass(size: nat, noise: (nat, nat) -> byte) returns (chunks: seq<nat>, data: seq<byte>)
    ensures Chunked(chunks, size)
    ensures |chunks| == (size + ChunkSize - 1) / ChunkSize
    ensures size == 0 ==> chunks == []
    ensures |data| == size
    ensures forall o :: 0 <= o < size ==> data[o] == noise(o / ChunkSize, o % ChunkSize)
  {
    chunks := [];
    data := [];
    var written: nat := 0;
    while written < size
      invariant written <= size
      invariant written < size ==> written == ChunkSize * |chunks|
      invariant written < size ==> forall j :: 0 <= j < |chunks| ==> chunks[j] == ChunkSize
      invariant Chunked(chunks, written)
      invariant |chunks| == (written + ChunkSize - 1) / ChunkSize
      invariant |data| == written
      invariant forall o :: 0 <= o < written ==> data[o] == noise(o / ChunkSize, o % ChunkSize)
      decreases size - written
    {
      var pass := |chunks|;
      var buffer := seq(ChunkSize, i requires 0 <= i < ChunkSize => noise(pass, i));
      var count := if size - written > ChunkSize then ChunkSize else size - written;
      forall o | written <= o < written + count
        ensures (data + buffer[..count])[o] == noise(o / ChunkSize, o % ChunkSize)
      {
        ChunkOffset(pass, o - written);
      }
      assert (chunks + [count])[..|chunks|] == chunks;
      data := data + buffer[..count];
      chunks := chunks + [count];
      written := written + count;
    }
  }

  /** Offset r of pass p is byte p * ChunkSize + r of the file. */
  lemma ChunkOffset(p: nat, r: nat)
    requires r < ChunkSize
    ensures (ChunkSize * p + r) / ChunkSize == p
    ensures (ChunkSize * p + r) % ChunkSize == r
  {
  }

  /** SecureDeleteFileAsync: a missing file is left alone; an existing one is
      overwritten in place with as many bytes of noise as it holds, then deleted. */
  method SecureDelete(fs: FileSystem, path: string, noise: (nat, nat) -> byte)
    returns (r: FileSystem, chunks: seq<nat>, overwritten: seq<byte>)
    ensures !FileExists(fs, path) ==> r == fs && chunks == []
    ensures FileExists(fs, path) ==>
              && Chunked(chunks, |fs.files[KeyIn(fs, path)]|)
              && |chunks| == (|fs.files[KeyIn(fs, path)]| + ChunkSize - 1) / ChunkSize
              && |overwritten| == |fs.files[KeyIn(fs, path)]|
    ensures FileExists(fs, path) ==> r == fs.(files := fs.files - {KeyIn(fs, path)})
  {
    if !FileExists(fs, path) {
      return fs, [], [];
    }
    var k := KeyIn(fs, path);
    chunks, overwritten := OverwritePass(|fs.files[k]|, noise);
    var scrubbed := fs.(files := fs.files[k := overwritten]);
    r := DeleteFile(scrubbed, k);
  }

  // ---------------------------------------------------------------------------
  // Copy, move, create
  // ---------------------------------------------------------------------------

  /** The argument checks of CopyFileAsync, in the order the method makes them. */
  function CopyChecks(fs: FileSystem, source: string, destination: string, overwrite: bool): (r: Option<Error>)
    ensures r.None? <==> !IsBlank(source) && FileExists(fs, source) && !IsBlank(destination) && (overwrite || !FileExists(fs, destination))
    ensures IsBlank(source) ==> r == Some(ArgumentError("sourceFilePath"))
    ensures !IsBlank(source) && !FileExists(fs, source) ==> r == Some(FileNotFound)
    ensures !IsBlank(source) && FileExists(fs, source) && IsBlank(destination) ==>
              r == Some(ArgumentError("destinationFilePath"))
    ensures !IsBlank(source) && FileExists(fs, source) && !IsBlank(destination) && !overwrite && FileExists(fs, destination) ==>
              r == Some(AlreadyExists)
  {
    if IsBlank(source) then Some(ArgumentError("sourceFilePath"))
    else if !FileExists(fs, source) then Some(FileNotFound)
    else if IsBlank(destination) then Some(ArgumentError("destinationFilePath"))
    else if !overwrite && FileExists(fs, destination) then Some(AlreadyExists)
    else None
  }

  /** The two streams of CopyFileAsync: the source opened for shared reading,
      then the destination created with no sharing, which the open source
      blocks when both name the same file. */
  function CopyStreams(fs: FileSystem, source: string, destination: string): (r: Effect)
    ensures r.fs.cwd == fs.cwd
    ensures r.status == Completed ==>
              && KeyIn(fs, source) != KeyIn(fs, destination)
              && KeyIn(fs, source) in fs.files
              && r.fs.files == fs.files[KeyIn(fs, destination) := fs.files[KeyIn(fs, source)]]
    ensures r.status.Failed? ==> r.fs == fs
    ensures ReadFile(fs, source).Failure? ==> r.status == Failed(ReadFile(fs, source).error)
    ensures ReadFile(fs, source).Success? && KeyIn(fs, source) == KeyIn(fs, destination) ==>
              r.status == Failed(SharingViolation)
  {
    match ReadFile(fs, source)
    case Failure(err) => Effect(fs, Failed(err))
    case Success(bytes) =>
      if KeyIn(fs, destination) == KeyIn(fs, source) then Effect(fs, Failed(SharingViolation))
      else
        match WriteFile(fs, destination, bytes)
        case Failure(err) => Effect(fs, Failed(err))
        case Success(fs1) => Effect(fs1, Completed)
  }

  /** CopyFileAsync as written: after the checks, Directory.CreateDirectory is
      called on Path.GetDirectoryName(destination) whenever Directory.Exists
      denies that directory, which includes the empty string of a bare name and
      the null of the root. */
  function CopyFileAsWritten(fs: FileSystem, source: string, destination: string, overwrite: bool): (r: Effect)
    ensures CopyChecks(fs, source, destination, overwrite).Some? ==>
              r == Effect(fs, Failed(CopyChecks(fs, source, destination, overwrite).value))
    ensures r.fs.cwd == fs.cwd && r.fs.files.Keys <= fs.files.Keys + {KeyIn(fs, destination)}
    ensures r.status == Completed ==>
              && CopyChecks(fs, source, destination, overwrite).None?
              && r.fs.files == fs.files[KeyIn(fs, destination) := fs.files[KeyIn(fs, source)]]
    ensures r.status.Failed? ==> r.fs.files == fs.files
  {
    match CopyChecks(fs, source, destination, overwrite)
    case Some(err) => Effect(fs, Failed(err))
    case None =>
      var dir := GetDirectoryName(destination);
      var prepared :=
        if dir.None? then Failure(ArgumentError("path"))
        else if !DirectoryExists(fs, dir.value) then CreateDirectory(fs, dir.value)
        else Success(fs);
      match prepared
      case Failure(err) => Effect(fs, Failed(err))
      case Success(fs1) => CopyStreams(fs1, source, destination)
  }

  /** CopyFileAsync with the destination's directory created only when
      Path.GetDirectoryName names one, as CompressAsync guards the same call. */
  function CopyFile(fs: FileSystem, source: string, destination: string, overwrite: bool): (r: Effect)
    ensures CopyChecks(fs, source, destination, overwrite).Some? ==>
              r == Effect(fs, Failed(CopyChecks(fs, source, destination, overwrite).value))
    ensures r.fs.cwd == fs.cwd && r.fs.files.Keys <= fs.files.Keys + {KeyIn(fs, destination)}
    ensures r.status == Completed ==>
              && CopyChecks(fs, source, destination, overwrite).None?
              && KeyIn(fs, source) != KeyIn(fs, destination)
              && r.fs.files == fs.files[KeyIn(fs, destination) := fs.files[KeyIn(fs, source)]]
    ensures r.status.Failed? ==> r.fs.files == fs.files
  {
    match CopyChecks(fs, source, destination, overwrite)
    case Some(err) => Effect(fs, Failed(err))
    case None =>
      var dir := GetDirectoryName(destination);
      var prepared :=
        if dir.Some? && !IsBlank(dir.value) && !DirectoryExists(fs, dir.value) then CreateDirectory(fs, dir.value)
        else Success(fs);
      match prepared
      case Failure(err) => Effect(fs, Failed(err))
      case Success(fs1) => CopyStreams(fs1, source, destination)
  }

  /** MoveFileAsync over the guarded copy: a copy that may overwrite, then a
      secure delete of the source, which never runs when the copy fails. */
  method MoveFile(fs: FileSystem, source: string, destination: string, noise: (nat, nat) -> byte) returns (r: Effect)
    ensures r.status.Failed? ==> r == CopyFile(fs, source, destination, true)
    ensures r.status.Failed? ==> r.fs.files == fs.files
    ensures r.status == Completed ==>
              && FileExists(fs, source) && KeyIn(fs, source) != KeyIn(fs, destination)
              && r.fs.files == fs.files[KeyIn(fs, destination) := fs.files[KeyIn(fs, source)]] - {KeyIn(fs, source)}
  {
    var copied := CopyFile(fs, source, destination, true);
    if copied.status.Failed? {
      return copied;
    }
    assert FileExists(copied.fs, source);
    var deleted, _, _ := SecureDelete(copied.fs, source, noise);
    r := Effect(deleted, Completed);
  }

  /** MoveFileAsync as written, on top of CopyFileAsync as written: a move to a
      bare file name fails in the copy and keeps the source. */
  method MoveFileAsWritten(fs: FileSystem, source: string, destination: string, noise: (nat, nat) -> byte) returns (r: Effect)
    ensures r.status.Failed? ==> r == CopyFileAsWritten(fs, source, destination, true)
    ensures r.status.Failed? ==> r.fs.files == fs.files
    ensures r.status == Completed ==>
              && FileExists(fs, source) && KeyIn(fs, source) != KeyIn(fs, destination)
              && r.fs.files == fs.files[KeyIn(fs, destination) := fs.files[KeyIn(fs, source)]] - {KeyIn(fs, source)}
    ensures CopyChecks(fs, source, destination, true).None? && Separator !in destination ==>
              r == Effect(fs, Failed(ArgumentError("path")))
  {
    if CopyChecks(fs, source, destination, true).None? && Separator !in destination {
      assert GetDirectoryName(destination) == Some("");
    }
    var copied := CopyFileAsWritten(fs, source, destination, true);
    if copied.status.Failed? {
      return copied;
    }
    var deleted, _, _ := SecureDelete(copied.fs, source, noise);
    r := Effect(deleted, Completed);
  }

  /** CreateEmptyFileAsync: the path must not be blank and must not name an
      existing file; FileMode.Create then creates the file empty, which needs
      the path to name no directory and its parent directory to exist. */
  function CreateEmptyFile(fs: FileSystem, path: string): (r: Result<FileSystem>)
    ensures IsBlank(path) ==> r == Failure(ArgumentError("filePath"))
    ensures !IsBlank(path) && FileExists(fs, path) ==> r == Failure(AlreadyExists)
    ensures r.Success? ==> KeyIn(fs, path) !in fs.files && r.value == fs.(files := fs.files[KeyIn(fs, path) := []])
    ensures var k := KeyIn(fs, path);
            r.Success? <==> && !IsBlank(path) && k !in fs.files && k !in fs.dirs && k != []
                            && !EndsWithSeparator(path) && !FileOnTheWay(fs, k) && k[..|k| - 1] in fs.dirs
    ensures var k := KeyIn(fs, path);
            !IsBlank(path) && !FileExists(fs, path) && (k in fs.dirs || k == []) ==>
              r == Failure(UnauthorizedAccess)
    ensures var k := KeyIn(fs, path);
            !IsBlank(path) && !FileExists(fs, path) && k !in fs.dirs && k != [] && NotADirectoryAt(fs, path) ==>
              r == Failure(NotADirectory)
    ensures var k := KeyIn(fs, path);
            !IsBlank(path) && k !in fs.dirs && k != [] && !NotADirectoryAt(fs, path) && EndsWithSeparator(path) ==>
              r == Failure(UnauthorizedAccess)
    ensures var k := KeyIn(fs, path);
            !IsBlank(path) && !FileExists(fs, path) && k !in fs.dirs && k != [] && !EndsWithSeparator(path) && !FileOnTheWay(fs, k) ==>
              (r.Failure? <==> k[..|k| - 1] !in fs.dirs) && (r.Failure? ==> r.error == MissingError(fs, k))
  {
    if IsBlank(path) then Failure(ArgumentError("filePath"))
    else if FileExists(fs, path) then Failure(AlreadyExists)
    else
      var k := KeyIn(fs, path);
      assert k != [] && !EndsWithSeparator(path) ==> !EndsWithSeparator(FullPath(fs.cwd, path)) by {
        if k != [] {
          JoinEndsWithSegment(k);
        }
      }
      WriteFile(fs, path, [])
  }
}

=== FILE: file_manager_properties.dfy ===
/** What the file operations promise, proved of the model in FileManager. */
module FileManagerProperties {
  import opened Results
  import opened Paths
  import opened FileSystems
  import opened FileManager

  // ---------------------------------------------------------------------------
  // The chunks of the overwrite pass
  // ---------------------------------------------------------------------------

  /** The chunk lengths written for a file of `size` bytes, front to back: full
      chunks while more than a chunk remains, then the rest. */
  function Chunks(size: nat): seq<nat>
    decreases size
  {
    if size == 0 then []
    else if size <= ChunkSize then [size]
    else [ChunkSize] + Chunks(size - ChunkSize)
  }

  lemma {:induction false} SumCons(x: nat, xs: seq<nat>)
    ensures Sum([x] + xs) == x + Sum(xs)
    decreases |xs|
  {
    if xs != [] {
      var all := [x] + xs;
      assert all[..|all| - 1] == [x] + xs[..|xs| - 1];
      SumCons(x, xs[..|xs| - 1]);
    }
  }

  /** The loop's chunks are exactly the reference chunks: a sequence of chunk
      lengths covers `size` bytes in the loop's way if and only if it is Chunks(size). */
  lemma {:induction false} ChunkedIsChunks(chunks: seq<nat>, size: nat)
    ensures Chunked(chunks, size) <==> chunks == Chunks(size)
    decreases size
  {
    if chunks == Chunks(size) {
      ChunksAreChunked(size);
    }
    if Chunked(chunks, size) && chunks != [] {
      ChunkedHead(chunks, size);
      if |chunks| > 1 {
        ChunkedIsChunks(chunks[1..], size - ChunkSize);
      }
    }
  }

  /** The first chunk of a covering is the whole size or a full chunk followed
      by a covering of the rest. */
  lemma ChunkedHead(chunks: seq<nat>, size: nat)
    requires Chunked(chunks, size) && chunks != []
    ensures |chunks| == 1 ==> 0 < size <= ChunkSize && chunks == [size]
    ensures |chunks| > 1 ==>
              && size > ChunkSize && chunks == [ChunkSize] + chunks[1..]
              && Chunked(chunks[1..], size - ChunkSize)
  {
    SumCons(chunks[0], chunks[1..]);
    assert chunks == [chunks[0]] + chunks[1..];
    if |chunks| > 1 {
      assert Sum(chunks[1..]) > 0 by {
        SumCons(chunks[1], chunks[2..]);
        assert chunks[1..] == [chunks[1]] + chunks[2..];
      }
    }
  }

  lemma {:induction false} ChunksAreChunked(size: nat)
    ensures Chunked(Chunks(size), size)
    decreases size
  {
    if size > ChunkSize {
      ChunksAreChunked(size - ChunkSize);
      SumCons(ChunkSize, Chunks(size - ChunkSize));
    }
  }

  // ---------------------------------------------------------------------------
  // Copying onto a bare file name
  // ---------------------------------------------------------------------------

  /** As written, copying to a bare file name that passed every check still
      fails: its directory name is the empty string, which Directory.Exists
      denies and Directory.CreateDirectory rejects. */
  lemma BareNameCopyFails(fs: FileSystem, source: string, destination: string, overwrite: bool)
    requires CopyChecks(fs, source, destination, overwrite).None?
    requires Separator !in destination
    ensures CopyFileAsWritten(fs, source, destination, overwrite) == Effect(fs, Failed(ArgumentError("path")))
  {
    assert GetDirectoryName(destination) == Some("");
  }

  /** A bare file name resolves to that name in the current directory. */
  lemma BareNameKey(cwd: CleanKey, name: string)
    requires IsCleanSegment(name)
    ensures KeyOf(cwd, name) == cwd + [name]
  {
    SplitWithoutSeparator(name);
    assert Resolve(cwd, [name]) == Resolve(cwd + [name], []);
  }

  /** With the guard, copying to a bare file name in an existing current
      directory completes and puts the source's bytes there. */
  lemma BareNameCopyWorks(fs: FileSystem, source: string, destination: string, overwrite: bool)
    requires WellFormed(fs) && fs.cwd in fs.dirs
    requires CopyChecks(fs, source, destination, overwrite).None?
    requires IsCleanSegment(destination)
    requires fs.cwd + [destination] !in fs.dirs && KeyIn(fs, source) != fs.cwd + [destination]
    ensures CopyFile(fs, source, destination, overwrite)
            == Effect(fs.(files := fs.files[fs.cwd + [destination] := fs.files[KeyIn(fs, source)]]), Completed)
  {
    BareNameKey(fs.cwd, destination);
    ExistingFileReadable(fs, source);
    ChildHasNoFileOnTheWay(fs, fs.cwd, destination);
    assert GetDirectoryName(destination) == Some("");
    var k := fs.cwd + [destination];
    assert k[..|k| - 1] == fs.cwd;
    assert !EndsWithSeparator(destination);
  }

  /** The guard changes nothing for a destination whose directory name is not blank. */
  lemma CopyAgreesOffBareNames(fs: FileSystem, source: string, destination: string, overwrite: bool)
    requires GetDirectoryName(destination).Some? && !IsBlank(GetDirectoryName(destination).value)
    ensures CopyFile(fs, source, destination, overwrite) == CopyFileAsWritten(fs, source, destination, overwrite)
  {
  }

  /** A file system with one file "a.txt" of one byte in the root, which is the
      current directory. */
  function OneFileSystem(): (fs: FileSystem)
    ensures WellFormed(fs) && fs.cwd in fs.dirs
  {
    var fs := FileSystem([], map[["a.txt"] := [7]], {[]});
    assert forall k, i :: k in fs.files && 0 <= i < |k| ==> k[..i] == [];
    fs
  }

  lemma OneFileKeys()
    ensures KeyIn(OneFileSystem(), "a.txt") == ["a.txt"]
    ensures KeyIn(OneFileSystem(), "b.txt") == ["b.txt"]
  {
    assert IsCleanSegment("a.txt") && IsCleanSegment("b.txt");
    BareNameKey([], "a.txt");
    BareNameKey([], "b.txt");
  }

  lemma OneFileExists()
    ensures FileExists(OneFileSystem(), "a.txt")
    ensures !FileExists(OneFileSystem(), "b.txt")
  {
    OneFileKeys();
    JoinEndsWithSegment(["a.txt"]);
  }

  lemma LetterNotBlank(s: string)
    requires |s| > 0 && 'a' <= s[0] <= 'z'
    ensures !IsBlank(s)
  {
    assert !IsWhiteSpace(s[0]);
  }

  lemma OneFileChecks()
    ensures CopyChecks(OneFileSystem(), "a.txt", "b.txt", false).None?
  {
    OneFileExists();
    LetterNotBlank("a.txt");
    LetterNotBlank("b.txt");
  }

  /** The input that shows it: copying "a.txt" to "b.txt" in the root fails as
      written and completes with the guard. */
  lemma CopyToBareNameExample()
    ensures CopyFileAsWritten(OneFileSystem(), "a.txt", "b.txt", false).status == Failed(ArgumentError("path"))
    ensures CopyFile(OneFileSystem(), "a.txt", "b.txt", false).status == Completed
    ensures CopyFile(OneFileSystem(), "a.txt", "b.txt", false).fs.files == map[["a.txt"] := [7], ["b.txt"] := [7]]
  {
    ExampleFailsAsWritten();
    ExampleWorksCorrected();
  }

  lemma ExampleFailsAsWritten()
    ensures CopyFileAsWritten(OneFileSystem(), "a.txt", "b.txt", false).status == Failed(ArgumentError("path"))
  {
    OneFileChecks();
    BareNameCopyFails(OneFileSystem(), "a.txt", "b.txt", false);
  }

  lemma ExampleWorksCorrected()
    ensures CopyFile(OneFileSystem(), "a.txt", "b.txt", false)
            == Effect(OneFileSystem().(files := map[["a.txt"] := [7], ["b.txt"] := [7]]), Completed)
  {
    var fs := OneFileSystem();
    OneFileKeys();
    OneFileChecks();
    assert IsCleanSegment("b.txt");
    BareNameCopyWorks(fs, "a.txt", "b.txt", false);
    assert fs.files[["b.txt"] := [7]] == map[["a.txt"] := [7], ["b.txt"] := [7]];
  }

  // ---------------------------------------------------------------------------
  // Creating an empty file
  // ---------------------------------------------------------------------------

  /** A created file exists, reads back empty, and cannot be created again. */
  lemma CreateEmptyThenExists(fs: FileSystem, path: string)
    requires CreateEmptyFile(fs, path).Success?
    ensures FileExists(CreateEmptyFile(fs, path).value, path)
    ensures ReadFile(CreateEmptyFile(fs, path).value, path) == Success([])
    ensures CreateEmptyFile(CreateEmptyFile(fs, path).value, path) == Failure(AlreadyExists)
  {
    var k := KeyIn(fs, path);
    assert WriteFile(fs, path, []).Success?;
    JoinEndsWithSegment(k);
  }
}

=== FILE: filesystems.dfy ===
/** The file system the utilities act on: a current directory, a map from
    resolved paths to file contents and a set of resolved directory paths,
    with the System.IO.File / Directory primitives the utilities call. */
module FileSystems {
  import opened Results
  import opened Paths

  newtype byte = b: int | 0 <= b < 256

  /** A resolved path that resolution leaves unchanged. */
  type CleanKey = k: Key | IsClean(k) witness []

  datatype FileSystem = FileSystem(cwd: CleanKey, files: map<Key, seq<byte>>, dirs: set<Key>)

  /** The shape every real directory tree has: the root is a directory, keys are
      resolved, nothing is both a file and a directory, and every proper prefix
      of an existing path is a directory. */
  ghost predicate WellFormed(fs: FileSystem) {
    && [] in fs.dirs
    && (forall k :: k in fs.files ==> IsClean(k) && k !in fs.dirs)
    && (forall k :: k in fs.dirs ==> IsClean(k))
    && (forall k, i :: k in fs.files && 0 <= i < |k| ==> k[..i] in fs.dirs)
    && (forall k, i :: k in fs.dirs && 0 <= i < |k| ==> k[..i] in fs.dirs)
  }

  /** The resolved key a path string names. */
  function KeyIn(fs: FileSystem, s: string): Key {
    KeyOf(fs.cwd, s)
  }

  /** File.Exists: false for the empty path and for a full path that ends in a separator. */
  predicate FileExists(fs: FileSystem, s: string) {
    s != "" && !EndsWithSeparator(FullPath(fs.cwd, s)) && KeyIn(fs, s) in fs.files
  }

  /** Directory.Exists. */
  predicate DirectoryExists(fs: FileSystem, s: string) {
    s != "" && KeyIn(fs, s) in fs.dirs
  }

  /** Whether File.GetAttributes finds anything at the path. */
  predicate PathExists(fs: FileSystem, s: string) {
    s != "" && (KeyIn(fs, s) in fs.files || KeyIn(fs, s) in fs.dirs)
  }

  /** The key and every proper prefix of it. */
  function Prefixes(k: Key): (ps: set<Key>)
    ensures k in ps
    ensures forall p :: p in ps <==> p <= k
  {
    var ps := set i | 0 <= i <= |k| :: k[..i];
    assert k[..|k|] == k;
    assert forall p :: p <= k ==> p == k[..|p|];
    ps
  }

  /** Directory.CreateDirectory on a resolved key: creates it and its missing
      ancestors, and fails when the key or one of its ancestors is a file. */
  function CreateDirectoryAt(fs: FileSystem, k: Key): (r: Result<FileSystem>)
    ensures r.Failure? <==> exists p :: p in fs.files && p <= k
    ensures r.Failure? ==> r.error == FileInTheWay
    ensures r.Success? ==> r.value.files == fs.files && r.value.cwd == fs.cwd
    ensures r.Success? ==> r.value.dirs == fs.dirs + Prefixes(k)
  {
    if exists p :: p in fs.files && p <= k then Failure(FileInTheWay)
    else Success(fs.(dirs := fs.dirs + Prefixes(k)))
  }

  /** Directory.CreateDirectory on a path string; the empty path is an argument error. */
  function CreateDirectory(fs: FileSystem, s: string): (r: Result<FileSystem>)
    ensures s == "" ==> r == Failure(ArgumentError("path"))
    ensures r.Success? ==> KeyIn(fs, s) in r.value.dirs && r.value.files == fs.files
    ensures r.Success? ==> r.value.cwd == fs.cwd && r.value.dirs == fs.dirs + Prefixes(KeyIn(fs, s))
  {
    if s == "" then Failure(ArgumentError("path")) else CreateDirectoryAt(fs, KeyIn(fs, s))
  }

  /** Whether opening the key meets a file where it needs a directory, as open(2)
      does with ENOTDIR: some proper ancestor of the key is a file. */
  predicate FileOnTheWay(fs: FileSystem, k: Key) {
    exists i :: 0 <= i < |k| && k[..i] in fs.files
  }

  /** Whether the open of a path fails with ENOTDIR: a file lies on the way, or
      the path names a file but ends in a separator. */
  predicate NotADirectoryAt(fs: FileSystem, s: string) {
    FileOnTheWay(fs, KeyIn(fs, s)) || (KeyIn(fs, s) in fs.files && EndsWithSeparator(s))
  }

  /** Opening a path with FileMode.Create and writing data to it: a directory
      (or a path naming one) cannot be opened, a file cannot be walked through,
      and the parent must exist. */
  function WriteFile(fs: FileSystem, s: string, data: seq<byte>): (r: Result<FileSystem>)
    ensures r.Success? ==> r.value == fs.(files := fs.files[KeyIn(fs, s) := data])
    ensures r.Success? ==> KeyIn(fs, s) !in fs.dirs && KeyIn(fs, s) != [] && !EndsWithSeparator(s)
    ensures KeyIn(fs, s) in fs.dirs ==> r == Failure(UnauthorizedAccess)
    ensures var k := KeyIn(fs, s);
            r.Success? <==> && k !in fs.dirs && k != [] && !EndsWithSeparator(s)
                            && !FileOnTheWay(fs, k) && k[..|k| - 1] in fs.dirs
    ensures var k := KeyIn(fs, s);
            r.Failure? ==> r.error == (if k in fs.dirs || k == [] then UnauthorizedAccess
                                       else if NotADirectoryAt(fs, s) then NotADirectory
                                       else if EndsWithSeparator(s) then UnauthorizedAccess
                                       else DirectoryNotFound)
  {
    var k := KeyIn(fs, s);
    if k in fs.dirs || k == [] then Failure(UnauthorizedAccess)
    else if NotADirectoryAt(fs, s) then Failure(NotADirectory)
    else if EndsWithSeparator(s) then Failure(UnauthorizedAccess)
    else if k[..|k| - 1] !in fs.dirs then Failure(DirectoryNotFound)
    else Success(fs.(files := fs.files[k := data]))
  }

  /** The exception raised for a path that names nothing: .NET on Unix blames
      the directory when the path's parent is not a directory, the file otherwise. */
  function MissingError(fs: FileSystem, k: Key): (e: Error)
    ensures e == DirectoryNotFound || e == FileNotFound
    ensures e == DirectoryNotFound <==> k != [] && k[..|k| - 1] !in fs.dirs
  {
    if k != [] && k[..|k| - 1] !in fs.dirs then DirectoryNotFound else FileNotFound
  }

  /** Opening a path for reading: a directory cannot be opened, a file cannot be
      walked through or named with a trailing separator, and a missing file is
      not found, or its directory is not when that is missing too. */
  function ReadFile(fs: FileSystem, s: string): (r: Result<seq<byte>>)
    ensures r.Success? <==> KeyIn(fs, s) in fs.files && KeyIn(fs, s) !in fs.dirs && !NotADirectoryAt(fs, s)
    ensures r.Success? ==> r.value == fs.files[KeyIn(fs, s)] && !EndsWithSeparator(s)
    ensures r.Failure? ==> r.error == (if KeyIn(fs, s) in fs.dirs then UnauthorizedAccess
                                       else if NotADirectoryAt(fs, s) then NotADirectory
                                       else MissingError(fs, KeyIn(fs, s)))
  {
    var k := KeyIn(fs, s);
    if k in fs.dirs then Failure(UnauthorizedAccess)
    else if NotADirectoryAt(fs, s) then Failure(NotADirectory)
    else if k !in fs.files then Failure(MissingError(fs, k))
    else Success(fs.files[k])
  }

  /** File.Delete of an existing file. */
  function DeleteFile(fs: FileSystem, k: Key): (r: FileSystem)
    ensures k !in r.files
    ensures forall p :: p != k ==> (p in r.files <==> p in fs.files)
    ensures forall p :: p in r.files ==> r.files[p] == fs.files[p]
    ensures r.dirs == fs.dirs && r.cwd == fs.cwd
  {
    fs.(files := fs.files - {k})
  }

  // ---------------------------------------------------------------------------
  // The primitives keep the tree well formed
  // ---------------------------------------------------------------------------

  lemma CreateDirectoryAtWellFormed(fs: FileSystem, k: Key)
    requires WellFormed(fs) && IsClean(k)
    ensures CreateDirectoryAt(fs, k).Success? ==> WellFormed(CreateDirectoryAt(fs, k).value)
  {
    var r := CreateDirectoryAt(fs, k);
    if r.Success? {
      var fs' := r.value;
      forall p | p in fs'.dirs
        ensures IsClean(p)
        ensures forall i :: 0 <= i < |p| ==> p[..i] in fs'.dirs
      {
        if p <= k {
          assert p == k[..|p|];
          forall i | 0 <= i < |p| ensures p[..i] in fs'.dirs {
            assert p[..i] <= k;
          }
        }
      }
    }
  }

  lemma WriteFileWellFormed(fs: FileSystem, s: string, data: seq<byte>)
    requires WellFormed(fs)
    ensures WriteFile(fs, s, data).Success? ==> WellFormed(WriteFile(fs, s, data).value)
  {
    var r := WriteFile(fs, s, data);
    if r.Success? {
      var k := KeyIn(fs, s);
      var parent := k[..|k| - 1];
      forall i | 0 <= i < |k| ensures k[..i] in fs.dirs {
        if i < |parent| {
          assert k[..i] == parent[..i];
        }
      }
    }
  }

  /** In a well-formed file system nothing below an existing directory has a
      file on the way. */
  lemma ChildHasNoFileOnTheWay(fs: FileSystem, parent: Key, name: string)
    requires WellFormed(fs) && parent in fs.dirs
    ensures !FileOnTheWay(fs, parent + [name])
  {
    var k := parent + [name];
    forall i | 0 <= i < |k| ensures k[..i] !in fs.files {
      assert k[..i] == parent[..i];
      if i < |parent| {
        assert parent[..i] in fs.dirs;
      }
    }
  }

  /** In a well-formed file system a file File.Exists finds can be opened for reading. */
  lemma ExistingFileReadable(fs: FileSystem, s: string)
    requires WellFormed(fs) && FileExists(fs, s)
    ensures ReadFile(fs, s) == Success(fs.files[KeyIn(fs, s)])
  {
    var k := KeyIn(fs, s);
    assert k != [];
    ChildHasNoFileOnTheWay(fs, k[..|k| - 1], k[|k| - 1]);
    assert k[..|k| - 1] + [k[|k| - 1]] == k;
  }

  lemma DeleteFileWellFormed(fs: FileSystem, k: Key)
    requires WellFormed(fs)
    ensures WellFormed(DeleteFile(fs, k))
  {
  }
}

=== FILE: paths.dfy ===
/** String-level path handling of the .NET runtime on Unix, as far as the file
    utilities rely on it: blank tests, ordinal and ordinal-ignore-case affixes,
    Path.GetDirectoryName / GetFileName / GetFileNameWithoutExtension /
    ChangeExtension / Combine / GetFullPath / GetRelativePath.

    A resolved path is a Key: the list of its segments below the root "/". */
module Paths {
  import opened Results

  /** Path.DirectorySeparatorChar and Path.AltDirectorySeparatorChar on Unix. */
  const Separator: char := '/'

  /** A resolved absolute path, one string per segment. */
  type Key = seq<string>

  // ---------------------------------------------------------------------------
  // Character classes and affixes
  // ---------------------------------------------------------------------------

  /** char.IsWhiteSpace: the Unicode space, line and paragraph separators plus
      the control characters U+0009..U+000D and U+0085. */
  predicate IsWhiteSpace(c: char) {
    || c == ' '
    || ('\U{0009}' <= c <= '\U{000D}')
    || c == '\U{0085}'
    || c == '\U{00A0}'
    || c == '\U{1680}'
    || ('\U{2000}' <= c <= '\U{200A}')
    || c == '\U{2028}'
    || c == '\U{2029}'
    || c == '\U{202F}'
    || c == '\U{205F}'
    || c == '\U{3000}'
  }

  /** string.IsNullOrWhiteSpace; a null string is modelled as the empty one. */
  predicate IsBlank(s: string) {
    forall i :: 0 <= i < |s| ==> IsWhiteSpace(s[i])
  }

  /** string.StartsWith(prefix, StringComparison.Ordinal). */
  predicate StartsWith(s: string, prefix: string) {
    prefix <= s
  }

  predicate EndsWith(s: string, suffix: string) {
    |suffix| <= |s| && s[|s| - |suffix|..] == suffix
  }

  predicate EndsWithSeparator(s: string) {
    |s| > 0 && s[|s| - 1] == Separator
  }

  /** A suffix of a suffix is a suffix. */
  lemma EndsWithTrans(a: string, b: string, c: string)
    requires EndsWith(a, b) && EndsWith(b, c)
    ensures EndsWith(a, c)
  {
    assert a[|a| - |c|..] == a[|a| - |b|..][|b| - |c|..];
  }

  /** Case folding of OrdinalIgnoreCase, restricted to ASCII letters. */
  function ToLowerAscii(c: char): (l: char)
    ensures 'A' <= c <= 'Z' ==> 'a' <= l <= 'z'
    ensures !('A' <= c <= 'Z') ==> l == c
  {
    if 'A' <= c <= 'Z' then (c as int + 32) as char else c
  }

  /** string.Equals(a, b, StringComparison.OrdinalIgnoreCase). */
  predicate EqualsIgnoreCase(a: string, b: string) {
    |a| == |b| && forall i :: 0 <= i < |a| ==> ToLowerAscii(a[i]) == ToLowerAscii(b[i])
  }

  /** string.EndsWith(suffix, StringComparison.OrdinalIgnoreCase). */
  predicate EndsWithIgnoreCase(s: string, suffix: string) {
    |suffix| <= |s| && EqualsIgnoreCase(s[|s| - |suffix|..], suffix)
  }

  /** A case-sensitive match is also a match ignoring case. */
  lemma EndsWithIgnoringCase(s: string, suffix: string)
    requires EndsWith(s, suffix)
    ensures EndsWithIgnoreCase(s, suffix)
  {
  }

  /** The last index in [lo, end) where c occurs in s, or -1 when there is none. */
  function LastIndexIn(s: string, c: char, lo: nat, end: nat): (r: int)
    requires lo <= end <= |s|
    ensures r == -1 || lo <= r < end
    ensures r >= 0 ==> s[r] == c
    ensures forall i :: lo <= i < end && r < i ==> s[i] != c
    decreases end
  {
    if end == lo then -1
    else if s[end - 1] == c then end - 1
    else LastIndexIn(s, c, lo, end - 1)
  }

  /** string.LastIndexOf(c): -1 when c does not occur. */
  function LastIndexOf(s: string, c: char): (r: int)
    ensures -1 <= r < |s|
    ensures r >= 0 ==> s[r] == c
    ensures forall i :: r < i < |s| ==> s[i] != c
  {
    LastIndexIn(s, c, 0, |s|)
  }

  // ---------------------------------------------------------------------------
  // Path.GetFileName, GetFileNameWithoutExtension, ChangeExtension, Combine
  // ---------------------------------------------------------------------------

  /** Path.GetFileName: the text after the last separator. */
  function GetFileName(s: string): (name: string)
    ensures Separator !in name
    ensures EndsWith(s, name)
    ensures |name| < |s| ==> s[|s| - |name| - 1] == Separator
  {
    s[LastIndexOf(s, Separator) + 1..]
  }

  /** Path.GetFileNameWithoutExtension: the file name cut at its last '.'. */
  function GetFileNameWithoutExtension(s: string): (stem: string)
    ensures Separator !in stem
    ensures stem <= GetFileName(s)
    ensures stem == GetFileName(s) || GetFileName(s)[|stem|] == '.'
  {
    var name := GetFileName(s);
    var dot := LastIndexOf(name, '.');
    if dot == -1 then name else name[..dot]
  }

  /** Index where the extension of the last segment begins, |s| if it has none. */
  function ExtensionStart(s: string): (i: nat)
    ensures i <= |s|
    ensures i < |s| ==> s[i] == '.'
    ensures forall j :: i <= j < |s| ==> s[j] != Separator
    ensures forall j :: i < j < |s| ==> s[j] != '.'
    ensures i == |s| ==> forall j :: LastIndexOf(s, Separator) < j < |s| ==> s[j] != '.'
  {
    var sep := LastIndexOf(s, Separator);
    var dot := LastIndexIn(s, '.', sep + 1, |s|);
    if dot == -1 then |s| else dot
  }

  /** Path.ChangeExtension(s, ext) for an extension that starts with '.'. */
  function ChangeExtension(s: string, ext: string): (r: string)
    ensures s == "" ==> r == ""
    ensures s != "" ==> EndsWith(r, ext) && r[..|r| - |ext|] <= s
  {
    if s == "" then "" else s[..ExtensionStart(s)] + ext
  }

  /** Path.Combine(a, b): b when it is rooted, otherwise a and b joined by one separator. */
  function Combine(a: string, b: string): (r: string)
    ensures b != "" && a != "" && b[0] != Separator && !EndsWithSeparator(a) ==> r == a + [Separator] + b
    ensures b != "" && b[0] == Separator ==> r == b
    ensures b == "" ==> r == a
    ensures a == "" ==> r == b
    ensures b != "" && b[0] != Separator && EndsWithSeparator(a) ==> r == a + b
    ensures EndsWith(r, b)
    ensures b != "" && b[0] != Separator ==> a <= r
  {
    if b == "" then a
    else if a == "" then b
    else if b[0] == Separator then b
    else if EndsWithSeparator(a) then a + b
    else a + [Separator] + b
  }

  // ---------------------------------------------------------------------------
  // Path.GetDirectoryName
  // ---------------------------------------------------------------------------

  function TrimTrailingSeparators(s: string, lo: nat, end: nat): (e: nat)
    requires lo <= end <= |s|
    ensures lo <= e <= end
    ensures forall j :: e <= j < end ==> s[j] == Separator
    ensures e == lo || s[e - 1] != Separator
    decreases end
  {
    if end > lo && s[end - 1] == Separator then TrimTrailingSeparators(s, lo, end - 1) else end
  }

  /** Path.GetDirectoryName: None for the empty string and for the root itself;
      otherwise the text before the last separator, without trailing separators,
      and "/" for a file directly under the root. Unlike .NET, repeated
      separators inside the result are kept ("a//b/c" gives "a//b", not "a/b");
      every caller resolves the result to a key, where the empty segment
      between them vanishes, so no operation sees the difference. */
  function GetDirectoryName(s: string): (r: Option<string>)
    ensures r.Some? <==> s != "" && s != [Separator]
    ensures r.Some? ==> r.value <= s && |r.value| < |s|
    ensures r.Some? && s[0] != Separator ==> (Separator !in s <==> r.value == "")
  {
    if s == "" then None
    else
      var root := if s[0] == Separator then 1 else 0;
      if |s| <= root then None
      else
        var sep := LastIndexIn(s, Separator, root, |s|);
        var end := if sep == -1 then root else sep;
        Some(s[..TrimTrailingSeparators(s, root, end)])
  }

  // ---------------------------------------------------------------------------
  // Segments: Split, Join, Resolve, Render
  // ---------------------------------------------------------------------------

  /** Joins segments with the separator. */
  function Join(parts: seq<string>): string
    decreases |parts|
  {
    if |parts| == 0 then ""
    else if |parts| == 1 then parts[0]
    else parts[0] + [Separator] + Join(parts[1..])
  }

  /** Splits at every separator; Join is its inverse. */
  function Split(s: string): (parts: seq<string>)
    ensures |parts| >= 1
    ensures forall i :: 0 <= i < |parts| ==> Separator !in parts[i]
    ensures Join(parts) == s
    decreases |s|
  {
    if s == [] then [""]
    else
      var rest := Split(s[1..]);
      if s[0] == Separator then [""] + rest
      else [[s[0]] + rest[0]] + rest[1..]
  }

  /** A segment that survives resolution unchanged. */
  predicate IsCleanSegment(part: string) {
    part != "" && part != "." && part != ".." && Separator !in part
  }

  predicate IsClean(k: Key) {
    forall i :: 0 <= i < |k| ==> IsCleanSegment(k[i])
  }

  /** The effect of one segment on the path resolved so far. */
  function Step(base: Key, part: string): (k: Key)
    requires IsClean(base)
    requires Separator !in part
    ensures IsClean(k)
  {
    if part == "" || part == "." then base
    else if part == ".." then (if base == [] then [] else base[..|base| - 1])
    else base + [part]
  }

  /** Resolution of '.', '..' and empty segments on top of an already resolved base. */
  function Resolve(base: Key, parts: seq<string>): (k: Key)
    requires IsClean(base)
    requires forall i :: 0 <= i < |parts| ==> Separator !in parts[i]
    ensures IsClean(k)
    decreases |parts|
  {
    if parts == [] then base else Resolve(Step(base, parts[0]), parts[1..])
  }

  /** The resolved key of a path string, relative paths taken from cwd. */
  function KeyOf(cwd: Key, s: string): (k: Key)
    requires IsClean(cwd)
    ensures IsClean(k)
  {
    if |s| > 0 && s[0] == Separator then Resolve([], Split(s)) else Resolve(cwd, Split(s))
  }

  /** The canonical string of a key. */
  function Render(k: Key): (s: string)
    ensures |s| > 0 && s[0] == Separator
  {
    [Separator] + Join(k)
  }

  /** Path.GetFullPath on Unix: the rendered key, keeping a trailing separator
      of the input when the result is not the root. */
  function FullPath(cwd: Key, s: string): (r: string)
    requires IsClean(cwd)
    ensures r == Render(KeyOf(cwd, s)) || (r == Render(KeyOf(cwd, s)) + [Separator] && EndsWithSeparator(s))
  {
    var k := KeyOf(cwd, s);
    Render(k) + (if k != [] && EndsWithSeparator(s) then [Separator] else [])
  }

  // ---------------------------------------------------------------------------
  // Path.GetRelativePath
  // ---------------------------------------------------------------------------

  function CommonPrefixLength(a: Key, b: Key): (n: nat)
    ensures n <= |a| && n <= |b|
    ensures a[..n] == b[..n]
    ensures n < |a| && n < |b| ==> a[n] != b[n]
    decreases |a|
  {
    if a == [] || b == [] || a[0] != b[0] then 0
    else 1 + CommonPrefixLength(a[1..], b[1..])
  }

  /** Path.GetRelativePath(Render(root), Render(k)) on a case-sensitive file system:
      one ".." per segment of root below the common prefix, then the rest of k. */
  function RelativePath(root: Key, k: Key): string {
    if root == k then "."
    else
      var n := CommonPrefixLength(root, k);
      Join(seq(|root| - n, _ => "..") + k[n..])
  }

  // ---------------------------------------------------------------------------
  // Lemmas: splitting, joining and resolving rendered keys
  // ---------------------------------------------------------------------------

  lemma {:induction false} SplitWithoutSeparator(a: string)
    requires Separator !in a
    ensures Split(a) == [a]
    decreases |a|
  {
    if a != [] {
      SplitWithoutSeparator(a[1..]);
    }
  }

  lemma {:induction false} SplitAtSeparator(a: string, b: string)
    requires Separator !in a
    ensures Split(a + [Separator] + b) == [a] + Split(b)
    decreases |a|
  {
    var s := a + [Separator] + b;
    if a == [] {
      assert s[1..] == b;
    } else {
      assert s[0] == a[0] && a[0] != Separator;
      assert s[1..] == a[1..] + [Separator] + b;
      SplitAtSeparator(a[1..], b);
      assert [a[0]] + a[1..] == a;
    }
  }

  /** Split undoes Join for segments without separators. */
  lemma {:induction false} SplitJoin(parts: seq<string>)
    requires |parts| >= 1
    requires forall i :: 0 <= i < |parts| ==> Separator !in parts[i]
    ensures Split(Join(parts)) == parts
    decreases |parts|
  {
    if |parts| == 1 {
      SplitWithoutSeparator(parts[0]);
    } else {
      SplitAtSeparator(parts[0], Join(parts[1..]));
      SplitJoin(parts[1..]);
    }
  }

  /** Clean segments are pushed one by one. */
  lemma {:induction false} ResolveClean(base: Key, k: Key)
    requires IsClean(base) && IsClean(k)
    ensures Resolve(base, k) == base + k
    decreases |k|
  {
    if k != [] {
      ResolveClean(base + [k[0]], k[1..]);
      assert base + [k[0]] + k[1..] == base + k;
    }
  }

  /** Resolving a rendered clean key gives the key back: GetFullPath is idempotent. */
  lemma KeyOfRender(cwd: Key, k: Key)
    requires IsClean(cwd) && IsClean(k)
    ensures KeyOf(cwd, Render(k)) == k
  {
    var s := Render(k);
    assert s == [] + [Separator] + Join(k);
    SplitAtSeparator([], Join(k));
    if k == [] {
      assert Split(s) == ["", ""];
      assert Resolve([], ["", ""]) == Resolve([], [""]) == Resolve([], []);
    } else {
      SplitJoin(k);
      assert Split(s) == [""] + k;
      ResolveClean([], k);
      assert Resolve([], Split(s)) == Resolve([], k);
    }
  }

  /** The full path of a rendered clean key is that rendering. */
  lemma FullPathOfRender(cwd: Key, k: Key)
    requires IsClean(cwd) && IsClean(k)
    ensures FullPath(cwd, Render(k)) == Render(k)
  {
    KeyOfRender(cwd, k);
    if k != [] {
      assert Render(k) == [Separator] + Join(k);
      JoinEndsWithSegment(k);
    }
  }

  lemma {:induction false} JoinEndsWithSegment(k: Key)
    requires IsClean(k) && k != []
    ensures !EndsWithSeparator([Separator] + Join(k))
    ensures |Join(k)| > 0 && Join(k)[|Join(k)| - 1] != Separator
    decreases |k|
  {
    if |k| > 1 {
      JoinEndsWithSegment(k[1..]);
    }
  }

  /** For a key below root, GetRelativePath is the joined remainder of the key. */
  lemma RelativePathBelow(root: Key, k: Key)
    requires root < k
    ensures RelativePath(root, k) == Join(k[|root|..])
  {
    var n := CommonPrefixLength(root, k);
    assert n == |root|;
    assert seq(|root| - n, _ => "..") + k[n..] == k[n..];
  }
}

=== FILE: results.dfy ===
/** Failure values of the file utilities. Every exception the library throws
    (or lets escape from the runtime it calls) becomes one of these values, and
    every operation returns its failure instead of throwing it. */
module Results {

  /** The exceptions the library raises, grouped by what the caller can tell apart. */
  datatype Error =
    | ArgumentError(param: string)  // ArgumentException / ArgumentNullException for the named argument
    | FileNotFound                  // FileNotFoundException
    | DirectoryNotFound             // DirectoryNotFoundException
    | DriveNotFound                 // DriveNotFoundException
    | AlreadyExists                 // IOException: the destination file already exists
    | OutsideTarget                 // IOException: an archive entry resolves outside the target directory
    | FileInTheWay                  // IOException: a directory is to be created where a file is
    | NotADirectory                 // IOException: a file is opened through a path that needs it to be a directory
    | SharingViolation              // IOException: the file is already open without sharing
    | UnauthorizedAccess            // UnauthorizedAccessException: a directory opened as a file
    | InvalidData                   // InvalidDataException: the container cannot be read
    | Cancelled                     // OperationCanceledException

  /** A value or the error that prevented it. */
  datatype Result<+T> = Success(value: T) | Failure(error: Error)

  /** How an operation whose only product is its effect ended. */
  datatype Status = Completed | Failed(error: Error)

  datatype Option<+T> = None | Some(value: T) {
    function GetOr(default: T): T {
      match this
      case Some(v) => v
      case None => default
    }
  }
}
